=== FILE: README.md ===
# Canvas editing core of the ID-card designer, in Dafny

This project models the editing core of an in-browser ID-card designer, with
proofs about the model:

- **The document store.** It holds the canvas size, the ordered element collection, the selection and a snapshot undo/redo history. Each action becomes a pure transition from one `CanvasState` to the next.
- **The element data model.** This is a closed union of five element kinds: text, image, shape, QR code and barcode.
- **Pointer geometry.** Two computations are extracted from the interaction components as pure functions over `real`. The first is the corner-handle resize, which has a floor on each side and an optional aspect-ratio lock. The second is the bounds clamp of drag-to-move.

Modules, one per file:

- `DesignerTypes` (`designer_types.dfy`): the element, template, history and canvas-state records.
- `ElementSeq` (`element_seq.dfy`): the collection primitives.
  - lookup by id, `findIndex`;
  - filtering an id out;
  - the three reorderings;
  - dense renumbering of `layerIndex`.
- `ElementPatch` (`element_patch.dfy`): `{...element, ...updates}` as a record of optional attributes.
- `CanvasStore` (`canvas_store.dfy`): every store action.
- `CanvasInvariants` (`canvas_invariants.dfy`): the document invariant and its preservation by each action.
- `HistoryLaws` (`history_laws.dfy`): undo/redo laws, including the undo inverse law over a trace of actions.
- `LayerLaws` (`layer_laws.dfy`): permutation, density, forward-then-backward and idempotence of the layer moves.
- `EditLaws` (`edit_laws.dfy`): unknown ids, the lock toggle, removal and two worked scenarios.
- `LayerAliasing` (`layer_aliasing.dfy`): the layer move as written in the store, whose undo snapshot is rewritten (see Findings).
- `Resize` (`resize.dfy`), `Drag` (`drag.dfy`) and `Numeric` (`numeric.dfy`, for `Math.min`/`Math.max`).

Parameters stand in for the store's effects:

- The ids that the store draws from `uuidv4` are parameters. Each must be fresh: not in the collection for add and duplicate, and pairwise distinct for a template load.
- The "nothing to undo" and "nothing to redo" notices become the `applied` flag of `Undo` and `Redo`.
- Pointer coordinates, element sizes and parent sizes, which the components read from DOM events and `getBoundingClientRect`, are inputs.

Two consequences of the store's code worth stating:

- **Undo count.** Sending to the back is itself a recorded action, so adding a text, adding a shape and sending the shape to the back needs three undos to reach the empty document (`EditLaws.SendToBackScenario`).
- **Clearing an empty canvas.** `clearCanvas` records history even when the collection is empty.

## Model

| member | source | states |
|---|---|---|
| DesignerTypes.TypeOf | src/types/designer.ts:1-73 | an element's `type` tag is exactly its variant: text, image, shape, QR code or barcode, each tag belonging to one variant |
| ElementSeq.FindIndex | src/lib/canvas-state.ts:92 | `findIndex` by id: -1 exactly when no element has the id; otherwise a position holding the id with no earlier position holding it |
| ElementSeq.FindIndexSameIds | src/lib/canvas-state.ts:247-256 | lookup sees only ids: two collections with the same ids position by position give the same index and the same presence |
| ElementSeq.Without | src/lib/canvas-state.ts:113 | `filter(el => el.id !== id)`: an element survives exactly when it was there with another id; no survivor has the id; strictly shorter when the id was present; unchanged when it was absent |
| ElementSeq.WithoutDeletesOne | src/lib/canvas-state.ts:113 | with distinct ids, filtering is deleting the one position `findIndex` reports, the rest keeping their order |
| ElementSeq.DeleteKeepsDistinct | src/lib/canvas-state.ts:113 | deleting a position keeps the ids distinct |
| ElementSeq.Renumber | src/lib/canvas-state.ts:167-169 | the renumbering pass: same length, same ids in the same places, the elements unchanged except for `layerIndex`, and every `layerIndex` equal to its position |
| ElementSeq.RenumberDense | src/lib/canvas-state.ts:167-169 | renumbering a collection whose indices already equal positions changes nothing |
| ElementSeq.SwapAdjacent | src/lib/canvas-state.ts:162-164 | the swap exchanges positions i and i+1, leaves every other position alone and permutes the collection |
| ElementSeq.MoveToEnd | src/lib/canvas-state.ts:208-209 | `splice` then `push`: the element goes last, the earlier ones keep their places, the later ones shift down by one; a permutation |
| ElementSeq.MoveToStart | src/lib/canvas-state.ts:230-231 | `splice` then `unshift`: the element goes first, the earlier ones shift up by one, the later ones keep their places; a permutation |
| ElementSeq.StripSwapAdjacent | src/lib/canvas-state.ts:155-176 | ignoring layer indices, the renumbered swap is the swap of the original, so it is a permutation of the original |
| ElementSeq.StripMoveToEnd | src/lib/canvas-state.ts:201-221 | ignoring layer indices, the renumbered move-to-end is the move-to-end of the original, so it is a permutation of the original |
| ElementSeq.StripMoveToStart | src/lib/canvas-state.ts:223-243 | ignoring layer indices, the renumbered move-to-start is the move-to-start of the original, so it is a permutation of the original |
| ElementSeq.MoveToStartUnlayered | src/lib/canvas-state.ts:223-243 | after move-to-start and renumbering, each position holds the element expected there, up to its layer index |
| ElementSeq.SwapAdjacentTwice | src/lib/canvas-state.ts:162-169 | swapping a pair, renumbering, swapping it back and renumbering again gives the original collection renumbered |
| ElementSeq.PermutationKeepsDistinct | src/lib/canvas-state.ts:155-243 | a permutation of a collection with distinct ids has distinct ids |
| ElementSeq.RenumberKeepsDistinct | src/lib/canvas-state.ts:167-169 | renumbering keeps ids distinct |
| ElementPatch.PatchedBody | src/lib/canvas-state.ts:96-99 | a kind-specific update of the element's own kind replaces those attributes; one of another kind is ignored; the kind never changes |
| ElementPatch.ApplyPatch | src/lib/canvas-state.ts:96-99 | the spread keeps id and type; each attribute present in the update replaces the element's, each absent one keeps it; the kind-specific attributes are replaced when the update carries the element's own kind and kept otherwise |
| ElementPatch.NoChangeIsIdentity | src/lib/canvas-state.ts:96-99 | spreading an empty update leaves the element as it was |
| ElementPatch.ApplyPatchIdempotent | src/lib/canvas-state.ts:96-99 | spreading the same update twice equals spreading it once |
| CanvasStore.SaveToHistory | src/lib/canvas-state.ts:58-63 | `saveToHistory`: the prior collection is pushed on top of `past`, the older snapshots stay below it, and `future` is emptied |
| CanvasStore.SetCanvasSize | src/lib/canvas-state.ts:69-71 | only width and height change; elements, selection and history are untouched, so the resize is not undoable |
| CanvasStore.Add | src/lib/canvas-state.ts:73-88 | the collection grows by one at the end; the new element carries the draft's attributes, the fresh id and layer index equal to the old length; it becomes the selection and `findIndex` finds it last; history recorded |
| CanvasStore.Update | src/lib/canvas-state.ts:90-106 | unknown id: state unchanged; otherwise only the first element with the id is replaced by the spread, the others are untouched, selection and size kept, history recorded |
| CanvasStore.Remove | src/lib/canvas-state.ts:108-123 | unknown id: state unchanged; otherwise every element with the id is dropped, the others kept as they were (layer indices not renumbered), the selection cleared whatever it was, history recorded |
| CanvasStore.Duplicate | src/lib/canvas-state.ts:125-149 | unknown id: state unchanged; otherwise a copy is appended that differs from the original only in id, layer index equal to the old length, and x and y moved by 20; it becomes the selection; history recorded |
| CanvasStore.Select | src/lib/canvas-state.ts:151-153 | only the selection changes, to exactly the given id or to none; nothing is recorded |
| CanvasStore.Reordered | src/lib/canvas-state.ts:166-174 | a reordering is installed renumbered, with size and selection kept and history recorded |
| CanvasStore.MoveForward | src/lib/canvas-state.ts:155-176 | absent or topmost: state unchanged; otherwise the element and the one above exchange places, all others stay put up to layer index, the indices become dense, selection kept, history recorded |
| CanvasStore.MoveBackward | src/lib/canvas-state.ts:178-199 | absent or bottom-most: state unchanged; otherwise the element and the one below exchange places, others stay put up to layer index, indices dense, selection kept, history recorded |
| CanvasStore.MoveToFront | src/lib/canvas-state.ts:201-221 | absent or topmost: state unchanged; otherwise the element goes last, the ones above it shift down by one, the ones below stay, up to layer index; indices dense; selection kept; history recorded |
| CanvasStore.MoveToBack | src/lib/canvas-state.ts:223-243 | absent or bottom-most: state unchanged; otherwise the element goes first, the ones below it shift up by one, the ones above stay, up to layer index; indices dense; selection kept; history recorded |
| CanvasStore.SendToStart | src/lib/canvas-state.ts:225-241 | the effective branch of the move to back: element first, others shifted as above, dense, recorded |
| CanvasStore.ToggleLock | src/lib/canvas-state.ts:245-265 | unknown id: state unchanged; otherwise only `locked` of the first element with the id flips, every other attribute and element is untouched, history recorded |
| CanvasStore.Undo | src/lib/canvas-state.ts:267-291 | applied exactly when `past` is non-empty, and then the newest snapshot becomes the collection, is popped from `past`, the current collection goes to the front of `future`, the selection is cleared and the size kept; otherwise state unchanged |
| CanvasStore.Redo | src/lib/canvas-state.ts:293-317 | applied exactly when `future` is non-empty, and then its first snapshot becomes the collection, the current collection goes on top of `past`, the selection is cleared and the size kept; otherwise state unchanged |
| CanvasStore.Reid | src/lib/canvas-state.ts:323-326 | the template's elements in the same order, each with its new id and otherwise unchanged |
| CanvasStore.LoadTemplate | src/lib/canvas-state.ts:319-335 | the template's size; its elements in order with fresh, distinct ids and otherwise unchanged; no selection; both history stacks empty |
| CanvasStore.ApplyTemplate | src/components/designer/TemplateGallery.tsx:15-21 | choosing a template loads its size and its elements, each under its fresh id and otherwise unchanged, with nothing selected and an empty history |
| CanvasStore.GetCanvasData | src/lib/canvas-state.ts:337-340 | the exported data is the width, height and collection of the state |
| CanvasStore.Clear | src/lib/canvas-state.ts:342-350 | the collection and the selection are emptied, the size kept, and the prior collection recorded, so clearing is undoable |
| CanvasInvariants.InitialValid | src/lib/canvas-state.ts:46-55 | the initial document is 500 by 300, empty, with no history, and satisfies the invariant |
| CanvasInvariants.SaveKeepsSnapshotsDistinct | src/lib/canvas-state.ts:58-63 | recording a valid collection keeps every snapshot's ids distinct |
| CanvasInvariants.SetCanvasSizeKeepsValid | src/lib/canvas-state.ts:69-71 | resizing the canvas keeps the invariant |
| CanvasInvariants.AddKeepsValid | src/lib/canvas-state.ts:73-88 | adding with a fresh id keeps ids distinct and the selection present |
| CanvasInvariants.UpdateKeepsValid | src/lib/canvas-state.ts:90-106 | an update keeps ids distinct and the selection present |
| CanvasInvariants.RemoveKeepsValid | src/lib/canvas-state.ts:108-123 | removal keeps ids distinct and the selection present, because it clears the selection |
| CanvasInvariants.DuplicateKeepsValid | src/lib/canvas-state.ts:125-149 | duplicating with a fresh id keeps ids distinct and selects a present element |
| CanvasInvariants.SelectKeepsValid | src/lib/canvas-state.ts:151-153 | selecting keeps the invariant if and only if the id is none or present; the store does not refuse an absent id |
| CanvasInvariants.ReorderedKeepsValid | src/lib/canvas-state.ts:155-243 | installing a renumbered permutation keeps ids distinct and the selected element present |
| CanvasInvariants.MoveForwardKeepsValid | src/lib/canvas-state.ts:155-176 | moving forward keeps the invariant |
| CanvasInvariants.MoveBackwardKeepsValid | src/lib/canvas-state.ts:178-199 | moving backward keeps the invariant |
| CanvasInvariants.MoveToFrontKeepsValid | src/lib/canvas-state.ts:201-221 | moving to front keeps the invariant |
| CanvasInvariants.MoveToBackKeepsValid | src/lib/canvas-state.ts:223-243 | moving to back keeps the invariant |
| CanvasInvariants.ToggleLockKeepsValid | src/lib/canvas-state.ts:245-265 | toggling the lock keeps the invariant |
| CanvasInvariants.UndoKeepsValid | src/lib/canvas-state.ts:267-291 | undo installs a snapshot with distinct ids and keeps every stored snapshot distinct |
| CanvasInvariants.RedoKeepsValid | src/lib/canvas-state.ts:293-317 | redo installs a snapshot with distinct ids and keeps every stored snapshot distinct |
| CanvasInvariants.LoadTemplateValid | src/lib/canvas-state.ts:319-335 | a template load yields a valid document whatever came before |
| CanvasInvariants.ClearKeepsValid | src/lib/canvas-state.ts:342-350 | clearing keeps the invariant |
| HistoryLaws.UndoRevertsRecorded | src/lib/canvas-state.ts:267-291 | after any recorded action, undo brings back the collection and the undo stack from before it; the undone collection is the only redoable one; the selection is cleared |
| HistoryLaws.RedoAfterUndo | src/lib/canvas-state.ts:267-317 | redo straight after an applied undo restores elements, history and size; only the selection is lost |
| HistoryLaws.UndoAfterRedo | src/lib/canvas-state.ts:267-317 | undo straight after an applied redo restores elements, history and size; only the selection is lost |
| HistoryLaws.RecordedInvalidatesRedo | src/lib/canvas-state.ts:58-63 | after any recorded action, redo has nothing to do and changes nothing |
| HistoryLaws.EffectiveActionsRecord | src/lib/canvas-state.ts:58-63 | add and clear always record; update, remove, duplicate and lock toggle record when the id is present |
| HistoryLaws.LoadTemplateNotUndoable | src/lib/canvas-state.ts:328-331 | after a template load neither undo nor redo applies |
| HistoryLaws.LoadTemplateForgetsState | src/lib/canvas-state.ts:319-332 | the document after a template load does not depend on the document before it |
| HistoryLaws.CanvasSizeSurvivesUndo | src/lib/canvas-state.ts:69-71 | an undo after a canvas resize keeps the new size, and applies exactly when it would have applied before the resize |
| HistoryLaws.Snapshots | src/lib/canvas-state.ts:58-63 | the collections a trace passes through, oldest first, one per action |
| HistoryLaws.PastAlongChain | src/lib/canvas-state.ts:58-63 | along a trace of recorded actions, `past` grows by exactly the collections the trace passes through, in order |
| HistoryLaws.UndoPops | src/lib/canvas-state.ts:275-287 | m undos on an undo stack topped by m snapshots bring back the lowest of them and leave the stack below |
| HistoryLaws.UndoUnwindsChain | src/lib/canvas-state.ts:267-291 | undo inverse law: after n recorded actions, n undos bring back the collection and the undo stack from before them |
| LayerLaws.MoveForwardPermutes | src/lib/canvas-state.ts:155-176 | moving forward permutes the elements, up to layer indices |
| LayerLaws.MoveBackwardPermutes | src/lib/canvas-state.ts:178-199 | moving backward permutes the elements, up to layer indices |
| LayerLaws.MoveToFrontPermutes | src/lib/canvas-state.ts:201-221 | moving to front permutes the elements, up to layer indices |
| LayerLaws.MoveToBackPermutes | src/lib/canvas-state.ts:223-243 | moving to back permutes the elements, up to layer indices |
| LayerLaws.LayerMovesDenseOrNoOp | src/lib/canvas-state.ts:159-169 | each layer move either leaves the state alone or leaves the layer indices dense |
| LayerLaws.ForwardLandsAbove | src/lib/canvas-state.ts:158-164 | with distinct ids, after moving forward the element is found one position higher |
| LayerLaws.ForwardThenBackward | src/lib/canvas-state.ts:155-199 | with distinct ids, moving an element forward and then backward restores the original order, densely renumbered |
| LayerLaws.ToFrontIdempotent | src/lib/canvas-state.ts:201-221 | with distinct ids, moving to front twice is moving to front once |
| LayerLaws.ToBackIdempotent | src/lib/canvas-state.ts:223-243 | with distinct ids, moving to back twice is moving to back once |
| EditLaws.UnknownIdIsNoOp | src/lib/canvas-state.ts:90-265 | an absent id leaves the whole state unchanged for update, remove, duplicate, lock toggle and all four layer moves |
| EditLaws.ToggleLockIsUpdate | src/lib/canvas-state.ts:245-265 | toggling the lock is the update that sets `locked` to its negation |
| EditLaws.ToggleTwiceRestores | src/lib/canvas-state.ts:250-256 | toggling the lock twice restores every element |
| EditLaws.UpdateKeepsIdsAndTypes | src/lib/canvas-state.ts:95-99 | an update keeps the length and, position by position, every id and every type |
| EditLaws.RemoveDeletesOne | src/lib/canvas-state.ts:113-120 | with distinct ids, removal deletes exactly the found position, the others keeping order and layer indices |
| EditLaws.RemoveThenAddRepeatsLayerIndex | src/lib/canvas-state.ts:78 | removing the bottom element and then adding one gives two elements the same layer index, so density is not an invariant |
| EditLaws.SendToBackScenario | src/lib/canvas-state.ts:223-243 | add text, add shape, send the shape to back: shape at layer 0 and text at layer 1; two undos leave the text alone, three the empty document |
| EditLaws.RemoveUndoScenario | src/lib/canvas-state.ts:108-123 | add A, add B, remove A, undo: the collection is the pre-removal one verbatim, A at layer 0 and B at layer 1 |
| LayerAliasing.MoveForwardAsWritten | src/lib/canvas-state.ts:155-176 | the move as written: nothing happens for an unknown or topmost id; otherwise the same size, collection and selection as the intended move, but the pushed snapshot is the old order in which the element at position i carries layer index i + 1, the one at i + 1 carries i, and every other element its own position |
| LayerAliasing.SwappedBack | src/lib/canvas-state.ts:157-169 | the renumbered swap put back in the old order is the old collection, up to layer indices, in which the element at i carries i + 1, the one at i + 1 carries i, and every other element its own position |
| LayerAliasing.UndoAfterForwardAsWritten | src/lib/canvas-state.ts:157-173 | undoing the move as written restores the order but not the indices: the moved pair comes back with swapped layer indices |
| LayerAliasing.ForwardUndoCounterexample | src/lib/canvas-state.ts:157-173 | two elements at layers 0 and 1: forward then undo yields layers 1 and 0, which is not the prior document and not dense |
| LayerAliasing.UndoAfterForward | src/lib/canvas-state.ts:155-176 | with the intended snapshot, undoing an effective move forward brings back exactly the prior collection |
| Resize.Floored | src/components/ui/ResizableElement.tsx:50-70 | the four handles: start size plus pointer travel, the left handles negating the x travel and the top handles the y travel, each side floored at its minimum |
| Resize.LockRatio | src/components/ui/ResizableElement.tsx:72-80 | the lock yields the start aspect ratio, neither side exceeds its floored value and one side keeps it; both sides stay positive when the start sides have the same sign, the width goes negative when they differ, a zero start width gives width 0 and a zero start height (ratio Infinity) gives height 0 |
| Resize.ResizeTo | src/components/ui/ResizableElement.tsx:50-82 | without lock, the floored size, at least the minimum on each side; with lock, the start ratio within the floored size and touching it on one side, a zero start side staying zero |
| Resize.LockedZeroWidthStaysZero | src/components/ui/ResizableElement.tsx:73-79 | with the lock on, a 0 by 40 element dragged 50 right and 10 down by its bottom-right handle comes out 0 by 50: a zero width never grows back |
| Resize.LockedRatioUndercutsFloor | src/components/ui/ResizableElement.tsx:72-80 | with the default floor of 20 and the lock on, a 100 by 20 element dragged 90 left by its bottom-right handle comes out 20 by 4, below the floor |
| Resize.BeginResize | src/components/ui/ResizableElement.tsx:98-108 | a locked element starts no gesture; otherwise the gesture records the handle, the pointer and the element's current size |
| Resize.EndResize | src/components/ui/ResizableElement.tsx:85-87 | releasing the pointer ends the gesture |
| Resize.ResizeMove | src/components/ui/ResizableElement.tsx:35-83 | a size comes out exactly when a gesture is active on an unlocked element, and it is the resize from the gesture's start |
| Resize.Gesture | src/components/ui/ResizableElement.tsx:35-83 | the size after a run of `onMouseMove` updates: no moves leave the size as it was, and the size can change only during an active gesture on an unlocked element |
| Resize.GestureDependsOnLastPointer | src/components/ui/ResizableElement.tsx:50-51 | the size at the end of a gesture depends only on the start snapshot and the last pointer position, not on earlier moves or intermediate sizes |
| Resize.LockedGestureKeepsSize | src/components/ui/ResizableElement.tsx:36 | while the element is locked, no run of pointer moves changes its size, whatever the start size, floors and lock |
| Drag.Clamp | src/components/ui/DraggableElement.tsx:75-83 | one axis: never negative; at most parent minus element when the element fits; 0 when it does not fit; unchanged when already in range; the nearer bound when out of range |
| Drag.ClampIdempotent | src/components/ui/DraggableElement.tsx:82-83 | clamping a clamped value changes nothing |
| Drag.MouseDown | src/components/ui/DraggableElement.tsx:101-127 | pressing a locked element neither selects it nor starts a drag; otherwise it selects and starts one |
| Drag.MouseUp | src/components/ui/DraggableElement.tsx:29-43 | releasing the pointer or lifting the touch ends the drag |
| Drag.DragMove | src/components/ui/DraggableElement.tsx:47-88 | a position comes out exactly when an unlocked element is being dragged, and it is the proposal clamped on each axis to the parent's bounds less the element's size, so it lies in the parent and keeps each in-range coordinate |
| Drag.AxesIndependent | src/components/ui/DraggableElement.tsx:82-83 | the x result ignores every vertical input and the y result every horizontal one |

## Left out

- The zustand wiring, `set`/`get` and the `toast` notices are not modelled. Actions are pure transitions, and the undo/redo notices are the `applied` flag.
- `uuidv4` is replaced by fresh-id parameters. `Add` and `Duplicate` require an id not already in the collection. `LoadTemplate` requires one distinct id per element.
- Rotation (`Math.atan2` in ResizableElement.tsx:42-46) is not modelled; it is trigonometry on floats.
- Floating-point arithmetic is modelled as exact `real` arithmetic, with no rounding. The one +Infinity the resize lock can meet is modelled by its outcome; NaN and -Infinity inputs are excluded (see Resize.LockRatio).
- Resize.LockRatio excludes two start sizes (`RatioDefined`): 0 by 0, whose ratio is NaN and gives a NaN height, and a negative width over a zero height, whose ratio is -Infinity and gives an infinite width. Neither value is a `real`. Zero, negative and +Infinity ratios are modelled. It also requires positive floored sides, which the floors guarantee.
- Resize.ResizeTo with the lock on excludes the same two start sizes and requires positive floors. No caller passes `minWidth` or `minHeight`, so the floors are always the default 20.
- Resize.ResizeMove requires the same (`RatioReady`), but only for an active gesture on an unlocked element, the only case that computes a size.
- Resize.Gesture requires `RatioReady` under the same condition, since it is a run of `ResizeMove` steps.
- Resize.GestureDependsOnLastPointer requires `RatioReady` for the gesture's start, since it is about an unlocked gesture that computes sizes.
- The drag offset (DraggableElement.tsx:62-63, 120-123) is not modelled. It mixes viewport and parent coordinates read from `getBoundingClientRect`, so the proposed position is an input.
- The `elementRef.current` and `parent` null checks in both components are not modelled. They depend on the DOM, and the model assumes the element is mounted.
- The `if (!previousElements)` and `if (!nextElements)` guards (canvas-state.ts:278, 304) are not modelled. Arrays are always truthy in JavaScript, so they are unreachable once the stack is known to be non-empty.
- CanvasStore.Update: an update is a `Patch` record of optional attributes. The variant attributes travel as one body of the element's own kind; a body of another kind is ignored. The source can spread any mix of attributes, including ones of another kind, which become invisible extra properties. Callers pass single attributes such as a whole `position`.
- LayerAliasing: the rewrite of the pushed snapshot is modelled for `moveElementForward` only. The other three moves share the pattern. Older snapshots that hold the same element objects are rewritten too, and that is not modelled.
- The canvas view, pan/zoom, keyboard shortcuts and layer-sorted rendering (Canvas.tsx) are not modelled. Neither are the dialogs, toolbar, control panels, element renderers and `TextTemplates.tsx`. They are presentation that only calls into the store.

## Findings

| source | as written | input that shows it | evidently intended | confidence | as-written member | corrected member |
|---|---|---|---|---|---|---|
| src/lib/canvas-state.ts:157-173 | the layer moves copy only the array (`[...state.elements]`) and then assign `layerIndex` on the shared element objects, so the snapshot just pushed onto `past` is rewritten with the new indices | two elements `a` at layer 0 and `b` at layer 1; move `a` forward, then undo: the order comes back as `a`, `b` but at layers 1 and 0 | a snapshot is an unchanging copy of the collection before the action, so undo brings back the prior document exactly | high (from the code; not executed) | LayerAliasing.ForwardUndoCounterexample | LayerAliasing.UndoAfterForward |

=== FILE: canvas_invariants.dfy ===
/** The document invariant the store keeps: ids are distinct in the live
    collection and in every snapshot of the history, and the selection is
    either empty or names an element that is present. Every action keeps it,
    except selecting an id that is not present, which the store does not
    refuse. */
module CanvasInvariants {
  import opened DesignerTypes
  import opened ElementSeq
  import opened ElementPatch
  import opened CanvasStore

  predicate SelectionPresent(s: CanvasState) {
    s.selectedElementId.Some? ==> HasId(s.elements, s.selectedElementId.value)
  }

  predicate SnapshotsDistinct(h: History) {
    && (forall k :: 0 <= k < |h.past| ==> DistinctIds(h.past[k]))
    && (forall k :: 0 <= k < |h.future| ==> DistinctIds(h.future[k]))
  }

  predicate Valid(s: CanvasState) {
    DistinctIds(s.elements) && SnapshotsDistinct(s.history) && SelectionPresent(s)
  }

  lemma InitialValid()
    ensures Valid(Initial)
    ensures Initial.elements == [] && Initial.history == History([], [])
    ensures Initial.width == 500.0 && Initial.height == 300.0
  {
  }

  /** Recording a valid state's collection keeps every snapshot distinct. */
  lemma SaveKeepsSnapshotsDistinct(s: CanvasState)
    requires Valid(s)
    ensures SnapshotsDistinct(SaveToHistory(s.history, s.elements))
  {
  }

  lemma SetCanvasSizeKeepsValid(s: CanvasState, width: real, height: real)
    requires Valid(s)
    ensures Valid(SetCanvasSize(s, width, height))
  {
  }

  lemma AddKeepsValid(s: CanvasState, d: ElementDraft, freshId: string)
    requires Valid(s) && !HasId(s.elements, freshId)
    ensures Valid(Add(s, d, freshId))
  {
    var r := Add(s, d, freshId);
    forall i, j | 0 <= i < j < |r.elements|
      ensures r.elements[i].id != r.elements[j].id
    {
      if j == |s.elements| {
        assert r.elements[i] == s.elements[i];
      }
    }
  }

  lemma UpdateKeepsValid(s: CanvasState, id: string, p: Patch)
    requires Valid(s)
    ensures Valid(Update(s, id, p))
  {
    var r := Update(s, id, p);
    if HasId(s.elements, id) {
      assert forall k :: 0 <= k < |s.elements| ==> r.elements[k].id == s.elements[k].id;
      if s.selectedElementId.Some? {
        FindIndexSameIds(s.elements, r.elements, s.selectedElementId.value);
      }
    }
  }

  lemma RemoveKeepsValid(s: CanvasState, id: string)
    requires Valid(s)
    ensures Valid(Remove(s, id))
  {
    if HasId(s.elements, id) {
      WithoutDeletesOne(s.elements, id);
      DeleteKeepsDistinct(s.elements, FindIndex(s.elements, id));
    }
  }

  lemma DuplicateKeepsValid(s: CanvasState, id: string, freshId: string)
    requires Valid(s) && !HasId(s.elements, freshId)
    ensures Valid(Duplicate(s, id, freshId))
  {
    var r := Duplicate(s, id, freshId);
    if HasId(s.elements, id) {
      forall i, j | 0 <= i < j < |r.elements|
        ensures r.elements[i].id != r.elements[j].id
      {
        if j == |s.elements| {
          assert r.elements[i] == s.elements[i];
        }
      }
      assert r.elements[|s.elements|].id == freshId;
    }
  }

  /** Selecting keeps the invariant exactly when the selection is empty or present. */
  lemma SelectKeepsValid(s: CanvasState, id: Option<string>)
    requires Valid(s)
    ensures Valid(Select(s, id)) <==> id.None? || HasId(s.elements, id.value)
  {
  }

  /** A reordering followed by renumbering keeps distinct ids and a present selection. */
  lemma ReorderedKeepsValid(s: CanvasState, els: seq<Element>)
    requires Valid(s)
    requires multiset(els) == multiset(s.elements)
    ensures Valid(Reordered(s, els))
  {
    PermutationKeepsDistinct(s.elements, els);
    RenumberKeepsDistinct(els);
    var r := Reordered(s, els);
    if s.selectedElementId.Some? {
      var sel := s.selectedElementId.value;
      var i := FindIndex(s.elements, sel);
      assert s.elements[i] in multiset(els);
      var j :| 0 <= j < |els| && els[j] == s.elements[i];
      assert r.elements[j].id == sel;
    }
  }

  lemma MoveForwardKeepsValid(s: CanvasState, id: string)
    requires Valid(s)
    ensures Valid(MoveForward(s, id))
  {
    var i := FindIndex(s.elements, id);
    if 0 <= i < |s.elements| - 1 {
      assert MoveForward(s, id) == Reordered(s, SwapAdjacent(s.elements, i));
      ReorderedKeepsValid(s, SwapAdjacent(s.elements, i));
    }
  }

  lemma MoveBackwardKeepsValid(s: CanvasState, id: string)
    requires Valid(s)
    ensures Valid(MoveBackward(s, id))
  {
    var i := FindIndex(s.elements, id);
    if 0 < i {
      assert MoveBackward(s, id) == Reordered(s, SwapAdjacent(s.elements, i - 1));
      ReorderedKeepsValid(s, SwapAdjacent(s.elements, i - 1));
    }
  }

  lemma MoveToFrontKeepsValid(s: CanvasState, id: string)
    requires Valid(s)
    ensures Valid(MoveToFront(s, id))
  {
    var i := FindIndex(s.elements, id);
    if 0 <= i < |s.elements| - 1 {
      assert MoveToFront(s, id) == Reordered(s, MoveToEnd(s.elements, i));
      ReorderedKeepsValid(s, MoveToEnd(s.elements, i));
    }
  }

  lemma MoveToBackKeepsValid(s: CanvasState, id: string)
    requires Valid(s)
    ensures Valid(MoveToBack(s, id))
  {
    var i := FindIndex(s.elements, id);
    if 0 < i {
      assert MoveToBack(s, id) == Reordered(s, MoveToStart(s.elements, i));
      ReorderedKeepsValid(s, MoveToStart(s.elements, i));
    }
  }

  lemma ToggleLockKeepsValid(s: CanvasState, id: string)
    requires Valid(s)
    ensures Valid(ToggleLock(s, id))
  {
    var r := ToggleLock(s, id);
    if HasId(s.elements, id) {
      assert forall k :: 0 <= k < |s.elements| ==> r.elements[k].id == s.elements[k].id;
      if s.selectedElementId.Some? {
        FindIndexSameIds(s.elements, r.elements, s.selectedElementId.value);
      }
    }
  }

  lemma UndoKeepsValid(s: CanvasState)
    requires Valid(s)
    ensures Valid(Undo(s).state)
  {
    var r := Undo(s).state;
    if Undo(s).applied {
      var n := |s.history.past|;
      assert DistinctIds(s.history.past[n - 1]);
      forall k | 0 <= k < |r.history.future|
        ensures DistinctIds(r.history.future[k])
      {
        if k > 0 {
          assert r.history.future[k] == s.history.future[k - 1];
        }
      }
    }
  }

  lemma RedoKeepsValid(s: CanvasState)
    requires Valid(s)
    ensures Valid(Redo(s).state)
  {
    var r := Redo(s).state;
    if Redo(s).applied {
      assert DistinctIds(s.history.future[0]);
      forall k | 0 <= k < |r.history.past|
        ensures DistinctIds(r.history.past[k])
      {
        if k < |s.history.past| {
          assert r.history.past[k] == s.history.past[k];
        }
      }
      forall k | 0 <= k < |r.history.future|
        ensures DistinctIds(r.history.future[k])
      {
        assert r.history.future[k] == s.history.future[k + 1];
      }
    }
  }

  /** A template load yields a valid document whatever the state before it. */
  lemma LoadTemplateValid(s: CanvasState, els: seq<Element>, width: real, height: real,
                          freshIds: seq<string>)
    requires |freshIds| == |els|
    requires forall i, j :: 0 <= i < j < |freshIds| ==> freshIds[i] != freshIds[j]
    ensures Valid(LoadTemplate(s, els, width, height, freshIds))
  {
  }

  lemma ClearKeepsValid(s: CanvasState)
    requires Valid(s)
    ensures Valid(Clear(s))
  {
  }
}

=== FILE: canvas_store.dfy ===
/** The canvas store: every action of the document store as a pure
    transition from one `CanvasState` to the next. Ids that the store would
    draw from a UUID generator are parameters here, required to be fresh;
    the success and error notices are the `applied` flag of `Undo`/`Redo`. */
module CanvasStore {
  import opened DesignerTypes
  import opened ElementSeq
  import opened ElementPatch

  /** The document every session starts from: 500 by 300, empty, no history. */
  const Initial: CanvasState := CanvasState(500.0, 300.0, [], None, History([], []))

  /** `saveToHistory`: remember the pre-mutation collection and drop the redo stack. */
  function SaveToHistory(h: History, prior: seq<Element>): (r: History)
    ensures |r.past| == |h.past| + 1 && r.past[|h.past|] == prior
    ensures r.past[..|h.past|] == h.past
    ensures r.future == []
  {
    History(h.past + [prior], [])
  }

  /** `r` is `s` with the pre-mutation collection of `s` pushed onto `past`
      and the redo stack emptied. */
  predicate Recorded(s: CanvasState, r: CanvasState) {
    r.history == SaveToHistory(s.history, s.elements)
  }

  /** Width, height and selection are those of `s`. */
  predicate SameFrame(s: CanvasState, r: CanvasState) {
    r.width == s.width && r.height == s.height && r.selectedElementId == s.selectedElementId
  }

  function SetCanvasSize(s: CanvasState, width: real, height: real): (r: CanvasState)
    ensures r.width == width && r.height == height
    ensures r.elements == s.elements
    ensures r.selectedElementId == s.selectedElementId
    ensures r.history == s.history
  {
    s.(width := width, height := height)
  }

  /** `addElement`: the draft gets the fresh id and the layer index equal to
      the current count, goes on top and becomes the selection. */
  function Add(s: CanvasState, d: ElementDraft, freshId: string): (r: CanvasState)
    requires !HasId(s.elements, freshId)
    ensures |r.elements| == |s.elements| + 1
    ensures r.elements[..|s.elements|] == s.elements
    ensures var e := r.elements[|s.elements|];
            && e.id == freshId && e.layerIndex == |s.elements|
            && e.position == d.position && e.locked == d.locked
            && e.style == d.style && e.body == d.body
    ensures r.selectedElementId == Some(freshId)
    ensures HasId(r.elements, freshId) && FindIndex(r.elements, freshId) == |s.elements|
    ensures r.width == s.width && r.height == s.height
    ensures Recorded(s, r)
  {
    var e := Element(freshId, d.position, d.locked, |s.elements|, d.style, d.body);
    var r := s.(elements := s.elements + [e], selectedElementId := Some(freshId),
                history := SaveToHistory(s.history, s.elements));
    assert r.elements[|s.elements|].id == freshId;
    r
  }

  /** `updateElement`: spread the patch over the first element with the id. */
  function Update(s: CanvasState, id: string, p: Patch): (r: CanvasState)
    ensures !HasId(s.elements, id) ==> r == s
    ensures HasId(s.elements, id) ==>
              var i := FindIndex(s.elements, id);
              && |r.elements| == |s.elements|
              && r.elements[i] == ApplyPatch(s.elements[i], p)
              && (forall j :: 0 <= j < |s.elements| && j != i ==> r.elements[j] == s.elements[j])
              && SameFrame(s, r) && Recorded(s, r)
  {
    var i := FindIndex(s.elements, id);
    if i == -1 then s
    else s.(elements := s.elements[i := ApplyPatch(s.elements[i], p)],
            history := SaveToHistory(s.history, s.elements))
  }

  /** `removeElement`: drop every element with the id and clear the selection,
      whichever element was selected. Remaining layer indices are not renumbered. */
  function Remove(s: CanvasState, id: string): (r: CanvasState)
    ensures !HasId(s.elements, id) ==> r == s
    ensures HasId(s.elements, id) ==>
              && r.elements == Without(s.elements, id)
              && |r.elements| < |s.elements|
              && !HasId(r.elements, id)
              && (forall e :: e in r.elements <==> e in s.elements && e.id != id)
              && r.selectedElementId == None
              && r.width == s.width && r.height == s.height
              && Recorded(s, r)
  {
    if !HasId(s.elements, id) then s
    else s.(elements := Without(s.elements, id), selectedElementId := None,
            history := SaveToHistory(s.history, s.elements))
  }

  /** The copy `duplicateElement` makes: a new id, 20 units right and down, on top. */
  function Duplicate(s: CanvasState, id: string, freshId: string): (r: CanvasState)
    requires !HasId(s.elements, freshId)
    ensures !HasId(s.elements, id) ==> r == s
    ensures HasId(s.elements, id) ==>
              var o := s.elements[FindIndex(s.elements, id)];
              && |r.elements| == |s.elements| + 1
              && r.elements[..|s.elements|] == s.elements
              && var e := r.elements[|s.elements|];
              && e.id == freshId && e.id != o.id
              && e.layerIndex == |s.elements|
              && e.position.x == o.position.x + 20.0 && e.position.y == o.position.y + 20.0
              && e.position.width == o.position.width && e.position.height == o.position.height
              && e.position.rotation == o.position.rotation
              && e.locked == o.locked && e.style == o.style && e.body == o.body
              && r.selectedElementId == Some(freshId)
              && r.width == s.width && r.height == s.height
              && Recorded(s, r)
  {
    var i := FindIndex(s.elements, id);
    if i == -1 then s
    else
      var o := s.elements[i];
      var e := o.(id := freshId, layerIndex := |s.elements|,
                  position := o.position.(x := o.position.x + 20.0, y := o.position.y + 20.0));
      s.(elements := s.elements + [e], selectedElementId := Some(freshId),
         history := SaveToHistory(s.history, s.elements))
  }

  /** `selectElement`: a selection change only, not recorded in history. */
  function Select(s: CanvasState, id: Option<string>): (r: CanvasState)
    ensures r.selectedElementId == id
    ensures r.elements == s.elements && r.history == s.history
    ensures r.width == s.width && r.height == s.height
  {
    s.(selectedElementId := id)
  }

  /** Replace the collection by a reordering of it, renumbered densely, and record history. */
  function Reordered(s: CanvasState, els: seq<Element>): (r: CanvasState)
    ensures r.elements == Renumber(els) && SameFrame(s, r) && Recorded(s, r)
  {
    s.(elements := Renumber(els), history := SaveToHistory(s.history, s.elements))
  }

  /** `moveElementForward`: swap with the element above; nothing to do on top. */
  function MoveForward(s: CanvasState, id: string): (r: CanvasState)
    ensures var i := FindIndex(s.elements, id);
            i == -1 || i == |s.elements| - 1 ==> r == s
    ensures var i := FindIndex(s.elements, id);
            0 <= i < |s.elements| - 1 ==>
              && |r.elements| == |s.elements|
              && Unlayered(r.elements[i + 1]) == Unlayered(s.elements[i])
              && Unlayered(r.elements[i]) == Unlayered(s.elements[i + 1])
              && (forall k :: 0 <= k < |s.elements| && k != i && k != i + 1 ==>
                    Unlayered(r.elements[k]) == Unlayered(s.elements[k]))
              && Dense(r.elements)
              && SameFrame(s, r) && Recorded(s, r)
  {
    var i := FindIndex(s.elements, id);
    if i == -1 || i == |s.elements| - 1 then s
    else
      var r := Reordered(s, SwapAdjacent(s.elements, i));
      assert Strip(r.elements) == Strip(SwapAdjacent(s.elements, i));
      r
  }

  /** `moveElementBackward`: swap with the element below; nothing to do at the bottom. */
  function MoveBackward(s: CanvasState, id: string): (r: CanvasState)
    ensures FindIndex(s.elements, id) <= 0 ==> r == s
    ensures var i := FindIndex(s.elements, id);
            0 < i ==>
              && |r.elements| == |s.elements|
              && Unlayered(r.elements[i - 1]) == Unlayered(s.elements[i])
              && Unlayered(r.elements[i]) == Unlayered(s.elements[i - 1])
              && (forall k :: 0 <= k < |s.elements| && k != i - 1 && k != i ==>
                    Unlayered(r.elements[k]) == Unlayered(s.elements[k]))
              && Dense(r.elements)
              && SameFrame(s, r) && Recorded(s, r)
  {
    var i := FindIndex(s.elements, id);
    if i <= 0 then s
    else
      var r := Reordered(s, SwapAdjacent(s.elements, i - 1));
      assert Strip(r.elements) == Strip(SwapAdjacent(s.elements, i - 1));
      r
  }

  /** `moveElementToFront`: move to the end of the order, the others keeping their order. */
  function MoveToFront(s: CanvasState, id: string): (r: CanvasState)
    ensures var i := FindIndex(s.elements, id);
            i == -1 || i == |s.elements| - 1 ==> r == s
    ensures var i := FindIndex(s.elements, id);
            0 <= i < |s.elements| - 1 ==>
              && |r.elements| == |s.elements|
              && Unlayered(r.elements[|s.elements| - 1]) == Unlayered(s.elements[i])
              && (forall k :: 0 <= k < i ==> Unlayered(r.elements[k]) == Unlayered(s.elements[k]))
              && (forall k :: i <= k < |s.elements| - 1 ==>
                    Unlayered(r.elements[k]) == Unlayered(s.elements[k + 1]))
              && Dense(r.elements)
              && SameFrame(s, r) && Recorded(s, r)
  {
    var i := FindIndex(s.elements, id);
    if i == -1 || i == |s.elements| - 1 then s
    else
      var r := Reordered(s, MoveToEnd(s.elements, i));
      assert Strip(r.elements) == Strip(MoveToEnd(s.elements, i));
      r
  }

  /** `moveElementToBack`: move to the start of the order, the others keeping their order. */
  function MoveToBack(s: CanvasState, id: string): (r: CanvasState)
    ensures FindIndex(s.elements, id) <= 0 ==> r == s
    ensures var i := FindIndex(s.elements, id);
            0 < i ==>
              && SentToStart(r.elements, s.elements, i)
              && Dense(r.elements)
              && SameFrame(s, r) && Recorded(s, r)
  {
    var i := FindIndex(s.elements, id);
    if i <= 0 then s else SendToStart(s, i)
  }

  /** Position `i` to the start of the order, renumbered and recorded. */
  function SendToStart(s: CanvasState, i: int): (r: CanvasState)
    requires 0 < i < |s.elements|
    ensures SentToStart(r.elements, s.elements, i) && Dense(r.elements)
    ensures SameFrame(s, r) && Recorded(s, r)
  {
    MoveToStartUnlayered(s.elements, i);
    Reordered(s, MoveToStart(s.elements, i))
  }

  /** `toggleElementLock`: flip `locked` of the first element with the id. */
  function ToggleLock(s: CanvasState, id: string): (r: CanvasState)
    ensures !HasId(s.elements, id) ==> r == s
    ensures HasId(s.elements, id) ==>
              var i := FindIndex(s.elements, id);
              && |r.elements| == |s.elements|
              && r.elements[i].locked == !s.elements[i].locked
              && r.elements[i].(locked := s.elements[i].locked) == s.elements[i]
              && (forall j :: 0 <= j < |s.elements| && j != i ==> r.elements[j] == s.elements[j])
              && SameFrame(s, r) && Recorded(s, r)
  {
    var i := FindIndex(s.elements, id);
    if i == -1 then s
    else
      var e := s.elements[i];
      s.(elements := s.elements[i := e.(locked := !e.locked)],
         history := SaveToHistory(s.history, s.elements))
  }

  /** The outcome of undo or redo: `applied` is false exactly when the store
      would report that there is nothing to undo or redo. */
  datatype Step = Step(state: CanvasState, applied: bool)

  /** `undo`: the newest snapshot of `past` becomes the collection, the
      current collection goes to the front of `future`, selection is cleared. */
  function Undo(s: CanvasState): (r: Step)
    ensures r.applied <==> |s.history.past| > 0
    ensures !r.applied ==> r.state == s
    ensures r.applied ==>
              var n := |s.history.past|;
              && r.state.elements == s.history.past[n - 1]
              && r.state.history.past == s.history.past[..n - 1]
              && r.state.history.future == [s.elements] + s.history.future
              && r.state.selectedElementId == None
              && r.state.width == s.width && r.state.height == s.height
  {
    var past := s.history.past;
    if |past| == 0 then Step(s, false)
    else
      Step(s.(elements := past[|past| - 1], selectedElementId := None,
              history := History(past[..|past| - 1], [s.elements] + s.history.future)), true)
  }

  /** `redo`: the first snapshot of `future` becomes the collection, the
      current collection goes to the end of `past`, selection is cleared. */
  function Redo(s: CanvasState): (r: Step)
    ensures r.applied <==> |s.history.future| > 0
    ensures !r.applied ==> r.state == s
    ensures r.applied ==>
              && r.state.elements == s.history.future[0]
              && r.state.history.past == s.history.past + [s.elements]
              && r.state.history.future == s.history.future[1..]
              && r.state.selectedElementId == None
              && r.state.width == s.width && r.state.height == s.height
  {
    var future := s.history.future;
    if |future| == 0 then Step(s, false)
    else
      Step(s.(elements := future[0], selectedElementId := None,
              history := History(s.history.past + [s.elements], future[1..])), true)
  }

  /** The template's elements with the new ids, in the same order and otherwise unchanged. */
  function Reid(els: seq<Element>, ids: seq<string>): (r: seq<Element>)
    requires |ids| == |els|
    ensures |r| == |els|
    ensures forall i :: 0 <= i < |els| ==> r[i].id == ids[i] && r[i].(id := els[i].id) == els[i]
  {
    seq(|els|, i requires 0 <= i < |els| => els[i].(id := ids[i]))
  }

  /** `loadTemplate`: a new document with the template's size and elements
      (fresh ids, layer indices as given), nothing selected and no history. */
  function LoadTemplate(s: CanvasState, els: seq<Element>, width: real, height: real,
                        freshIds: seq<string>): (r: CanvasState)
    requires |freshIds| == |els|
    requires forall i, j :: 0 <= i < j < |freshIds| ==> freshIds[i] != freshIds[j]
    ensures r.width == width && r.height == height
    ensures |r.elements| == |els|
    ensures forall i :: 0 <= i < |els| ==>
              r.elements[i].id == freshIds[i] && r.elements[i].(id := els[i].id) == els[i]
    ensures DistinctIds(r.elements)
    ensures r.selectedElementId == None
    ensures r.history.past == [] && r.history.future == []
  {
    CanvasState(width, height, Reid(els, freshIds), None, History([], []))
  }

  /** Load a catalogue template, as the template gallery does. */
  function ApplyTemplate(s: CanvasState, t: Template, freshIds: seq<string>): (r: CanvasState)
    requires |freshIds| == |t.elements|
    requires forall i, j :: 0 <= i < j < |freshIds| ==> freshIds[i] != freshIds[j]
    ensures r.width == t.width && r.height == t.height && |r.elements| == |t.elements|
    ensures forall i :: 0 <= i < |t.elements| ==>
              r.elements[i].id == freshIds[i] && r.elements[i].(id := t.elements[i].id) == t.elements[i]
    ensures r.selectedElementId == None
    ensures r.history == History([], [])
  {
    LoadTemplate(s, t.elements, t.width, t.height, freshIds)
  }

  datatype CanvasData = CanvasData(width: real, height: real, elements: seq<Element>)

  /** `getCanvasData`: the exported part of the document; reading it changes nothing. */
  function GetCanvasData(s: CanvasState): (d: CanvasData)
    ensures d.width == s.width && d.height == s.height && d.elements == s.elements
  {
    CanvasData(s.width, s.height, s.elements)
  }

  /** `clearCanvas`: empty the collection and the selection; recorded, so undoable. */
  function Clear(s: CanvasState): (r: CanvasState)
    ensures r.elements == [] && r.selectedElementId == None
    ensures r.width == s.width && r.height == s.height
    ensures Recorded(s, r)
  {
    s.(elements := [], selectedElementId := None, history := SaveToHistory(s.history, s.elements))
  }
}

=== FILE: designer_types.dfy ===
/** The document model of the ID-card designer: the five element variants,
    their shared attributes, templates and the canvas state with its
    snapshot history. Numbers of the source are modelled as `real`
    (geometry, sizes, opacity) or `int` (the layer index). */
module DesignerTypes {

  datatype Option<+T> = None | Some(value: T)

  /** The discriminant of an element: exactly one of five tags. */
  datatype ElementType = TextType | ImageType | ShapeType | QRCodeType | BarcodeType

  datatype Position = Position(x: real, y: real, width: real, height: real, rotation: real)

  datatype ObjectFit = Cover | Contain | Fill

  /** The optional style record; each attribute is itself optional. */
  datatype Style = Style(opacity: Option<real>, objectFit: Option<ObjectFit>, filter: Option<string>)

  datatype FontWeight = NormalWeight | Bold
  datatype FontStyle = NormalStyle | Italic
  datatype TextDecoration = NoDecoration | Underline
  datatype TextAlign = AlignLeft | AlignCenter | AlignRight
  datatype Direction = Ltr | Rtl
  datatype ShapeKind = Rectangle | Circle
  datatype BarcodeFormat = Code128 | Code39 | Ean13 | Ean8 | Upc | Upce

  /** The variant-specific attributes of an element. */
  datatype Body =
    | Text(text: string, fontSize: real, fontFamily: string, color: string,
           fontWeight: FontWeight, fontStyle: FontStyle, textDecoration: TextDecoration,
           textAlign: TextAlign, direction: Direction)
    | Image(src: string, aspectRatio: real, alt: string)
    | Shape(shape: ShapeKind, backgroundColor: string, borderColor: string,
            borderWidth: real, borderRadius: real)
    | QRCode(value: string, backgroundColor: string, foregroundColor: string)
    | Barcode(value: string, backgroundColor: string, foregroundColor: string,
              format: BarcodeFormat)

  /** The tag carried by a body; one tag per variant and no other. */
  function TypeOf(b: Body): (t: ElementType)
    ensures t == TextType <==> b.Text?
    ensures t == ImageType <==> b.Image?
    ensures t == ShapeType <==> b.Shape?
    ensures t == QRCodeType <==> b.QRCode?
    ensures t == BarcodeType <==> b.Barcode?
  {
    match b
    case Text(_, _, _, _, _, _, _, _, _) => TextType
    case Image(_, _, _) => ImageType
    case Shape(_, _, _, _, _) => ShapeType
    case QRCode(_, _, _) => QRCodeType
    case Barcode(_, _, _, _) => BarcodeType
  }

  /** A designer element: the attributes every variant shares, plus its body. */
  datatype Element = Element(id: string, position: Position, locked: bool, layerIndex: int,
                             style: Option<Style>, body: Body)
  {
    function Type(): ElementType { TypeOf(body) }
  }

  /** An element as handed to `addElement`: everything but the id and the layer index. */
  datatype ElementDraft = ElementDraft(position: Position, locked: bool, style: Option<Style>, body: Body)

  datatype Template = Template(id: string, name: string, thumbnail: string,
                               width: real, height: real, elements: seq<Element>)

  /** Whole-collection snapshots: `past` ends with the most recent one,
      `future` starts with the next one to redo. */
  datatype History = History(past: seq<seq<Element>>, future: seq<seq<Element>>)

  datatype CanvasState = CanvasState(width: real, height: real, elements: seq<Element>,
                                     selectedElementId: Option<string>, history: History)
}

=== FILE: drag.dfy ===
/** Drag-to-move. While a drag is in progress every pointer move proposes a
    new top-left corner, and each axis is clamped independently so that the
    element stays inside its parent canvas; an element larger than the
    canvas is pinned at 0. How the proposal is derived from the pointer (an
    offset against the element's on-screen box) is not part of this model. */
module Drag {
  import opened DesignerTypes
  import opened Numeric

  /** One axis: the proposal bounded to `[0, parentSize - elementSize]`,
      the lower bound winning when the two cross. */
  function Clamp(proposed: real, parentSize: real, elementSize: real): (r: real)
    ensures r >= 0.0
    ensures parentSize >= elementSize ==> r <= parentSize - elementSize
    ensures parentSize < elementSize ==> r == 0.0
    ensures 0.0 <= proposed <= parentSize - elementSize ==> r == proposed
    ensures proposed < 0.0 ==> r == 0.0
    ensures parentSize >= elementSize && proposed > parentSize - elementSize ==> r == parentSize - elementSize
  {
    Max(0.0, Min(parentSize - elementSize, proposed))
  }

  /** Clamping a clamped value changes nothing. */
  lemma ClampIdempotent(proposed: real, parentSize: real, elementSize: real)
    ensures Clamp(Clamp(proposed, parentSize, elementSize), parentSize, elementSize)
         == Clamp(proposed, parentSize, elementSize)
  {
  }

  /** Whether a drag is in progress. */
  datatype Session = Idle | Dragging

  /** Pressing on the element: unless locked it is selected and a drag starts;
      a locked element is neither selected nor dragged. */
  function MouseDown(s: Session, locked: bool): (r: (Session, bool))
    ensures locked ==> r == (s, false)
    ensures !locked ==> r.0 == Dragging && r.1
  {
    if locked then (s, false) else (Dragging, true)
  }

  /** Releasing the pointer (or lifting the touch) ends the drag. */
  function MouseUp(s: Session): (r: Session)
    ensures r == Idle
  {
    Idle
  }

  /** A pointer move: no new position unless dragging an unlocked element;
      otherwise both axes clamped to the parent. */
  function DragMove(s: Session, locked: bool, proposed: Point, parentWidth: real, parentHeight: real,
                    elementWidth: real, elementHeight: real): (r: Option<Point>)
    ensures r.Some? <==> s.Dragging? && !locked
    ensures r.Some? ==> r.value == Point(Clamp(proposed.x, parentWidth, elementWidth),
                                         Clamp(proposed.y, parentHeight, elementHeight))
    ensures r.Some? ==>
              && 0.0 <= r.value.x && 0.0 <= r.value.y
              && (parentWidth >= elementWidth ==> r.value.x <= parentWidth - elementWidth)
              && (parentHeight >= elementHeight ==> r.value.y <= parentHeight - elementHeight)
              && (0.0 <= proposed.x <= parentWidth - elementWidth ==> r.value.x == proposed.x)
              && (0.0 <= proposed.y <= parentHeight - elementHeight ==> r.value.y == proposed.y)
  {
    if s.Idle? || locked then None
    else Some(Point(Clamp(proposed.x, parentWidth, elementWidth),
                    Clamp(proposed.y, parentHeight, elementHeight)))
  }

  /** The axes are independent: the horizontal result ignores every vertical
      input, and the vertical result every horizontal one. */
  lemma AxesIndependent(s: Session,
                        x: real, pw: real, ew: real, y1: real, y2: real, ph1: real, ph2: real, eh1: real, eh2: real,
                        y: real, ph: real, eh: real, x1: real, x2: real, pw1: real, pw2: real, ew1: real, ew2: real)
    requires s.Dragging?
    ensures DragMove(s, false, Point(x, y1), pw, ph1, ew, eh1).value.x
         == DragMove(s, false, Point(x, y2), pw, ph2, ew, eh2).value.x
    ensures DragMove(s, false, Point(x1, y), pw1, ph, ew1, eh).value.y
         == DragMove(s, false, Point(x2, y), pw2, ph, ew2, eh).value.y
  {
  }
}

=== FILE: edit_laws.dfy ===
/** Laws of the element edits: unknown ids are ignored, the lock toggle is
    an update of `locked` and undoes itself, removal does not renumber, and
    the layer indices are dense only right after a layer move. */
module EditLaws {
  import opened DesignerTypes
  import opened ElementSeq
  import opened ElementPatch
  import opened CanvasStore
  import HistoryLaws

  /** An id that is not present leaves the whole state untouched: elements,
      selection and history. */
  lemma UnknownIdIsNoOp(s: CanvasState, id: string, p: Patch, freshId: string)
    requires !HasId(s.elements, id) && !HasId(s.elements, freshId)
    ensures Update(s, id, p) == s
    ensures Remove(s, id) == s
    ensures Duplicate(s, id, freshId) == s
    ensures ToggleLock(s, id) == s
    ensures MoveForward(s, id) == s && MoveBackward(s, id) == s
    ensures MoveToFront(s, id) == s && MoveToBack(s, id) == s
  {
  }

  /** Toggling the lock is updating `locked` to its negation. */
  lemma ToggleLockIsUpdate(s: CanvasState, id: string)
    requires HasId(s.elements, id)
    ensures ToggleLock(s, id)
         == Update(s, id, NoChange.(locked := Some(!s.elements[FindIndex(s.elements, id)].locked)))
  {
  }

  /** Toggling twice restores every element; only the history has grown. */
  lemma ToggleTwiceRestores(s: CanvasState, id: string)
    ensures ToggleLock(ToggleLock(s, id), id).elements == s.elements
  {
    var r := ToggleLock(s, id);
    if HasId(s.elements, id) {
      assert forall k :: 0 <= k < |s.elements| ==> r.elements[k].id == s.elements[k].id;
      FindIndexSameIds(s.elements, r.elements, id);
      var i := FindIndex(s.elements, id);
      var t := ToggleLock(r, id).elements;
      assert t[i] == s.elements[i];
      assert forall k :: 0 <= k < |s.elements| ==> t[k] == s.elements[k];
    }
  }

  /** An update keeps every id and every element's type, position by position. */
  lemma UpdateKeepsIdsAndTypes(s: CanvasState, id: string, p: Patch)
    ensures var r := Update(s, id, p);
            && |r.elements| == |s.elements|
            && forall k :: 0 <= k < |s.elements| ==>
                 r.elements[k].id == s.elements[k].id && r.elements[k].Type() == s.elements[k].Type()
  {
  }

  /** With distinct ids, removal deletes exactly the one element and leaves
      every other one, layer index included, where it was. */
  lemma RemoveDeletesOne(s: CanvasState, id: string)
    requires DistinctIds(s.elements) && HasId(s.elements, id)
    ensures var i := FindIndex(s.elements, id);
            && Remove(s, id).elements == s.elements[..i] + s.elements[i + 1..]
            && |Remove(s, id).elements| == |s.elements| - 1
  {
    WithoutDeletesOne(s.elements, id);
  }

  function Label(id: string, layerIndex: int): Element {
    Element(id, Position(0.0, 0.0, 100.0, 20.0, 0.0), false, layerIndex, None,
            Text("", 16.0, "Arial", "#000000", NormalWeight, NormalStyle, NoDecoration, AlignLeft, Ltr))
  }

  /** Layer indices are not dense in general: removing the bottom element and
      adding a new one gives two elements the same layer index. */
  lemma RemoveThenAddRepeatsLayerIndex()
    ensures var s := Initial.(elements := [Label("a", 0), Label("b", 1)]);
            var r := Add(Remove(s, "a"), ElementDraft(Position(0.0, 0.0, 10.0, 10.0, 0.0), false, None,
                                                      Shape(Rectangle, "#fff", "#000", 1.0, 0.0)), "c");
            && Dense(s.elements)
            && |r.elements| == 2
            && r.elements[0].layerIndex == r.elements[1].layerIndex == 1
            && !Dense(r.elements)
  {
    var s := Initial.(elements := [Label("a", 0), Label("b", 1)]);
    assert s.elements[0].id == "a" && s.elements[1].id != "a";
    WithoutDeletesOne(s.elements, "a");
    assert Remove(s, "a").elements == [Label("b", 1)];
  }

  const TextDraft: ElementDraft :=
    ElementDraft(Position(0.0, 0.0, 100.0, 20.0, 0.0), false, None,
                 Text("Text", 16.0, "Arial", "#000000", NormalWeight, NormalStyle, NoDecoration, AlignLeft, Ltr))

  const ShapeDraft: ElementDraft :=
    ElementDraft(Position(10.0, 10.0, 50.0, 50.0, 0.0), false, None,
                 Shape(Rectangle, "#ffffff", "#000000", 1.0, 0.0))

  /** From the empty document: add a text, add a shape, send the shape to the
      back. The shape is then layer 0 and the text layer 1; two undos leave
      the text alone and a third one the empty document. */
  lemma SendToBackScenario()
    ensures var s1 := Add(Initial, TextDraft, "t");
            var s2 := Add(s1, ShapeDraft, "s");
            var s3 := MoveToBack(s2, "s");
            && s3.elements[0].id == "s" && s3.elements[0].layerIndex == 0
            && s3.elements[1].id == "t" && s3.elements[1].layerIndex == 1
            && HistoryLaws.UndoTimes(s3, 2).elements == s1.elements
            && HistoryLaws.UndoTimes(s3, 3).elements == []
  {
    var s1 := Add(Initial, TextDraft, "t");
    var s2 := Add(s1, ShapeDraft, "s");
    assert s2.elements[0].id == "t" && s2.elements[1].id == "s";
    assert FindIndex(s2.elements, "s") == 1;
    var s3 := MoveToBack(s2, "s");
    HistoryLaws.UndoUnwindsChain([Initial, s1, s2, s3]);
    HistoryLaws.UndoUnwindsChain([s1, s2, s3]);
  }

  /** Add A, add B, remove A, undo: A is back with its original layer index,
      next to B, exactly as before the removal. */
  lemma RemoveUndoScenario()
    ensures var s2 := Add(Add(Initial, TextDraft, "a"), ShapeDraft, "b");
            var u := Undo(Remove(s2, "a")).state;
            && u.elements == s2.elements
            && u.elements[0].id == "a" && u.elements[0].layerIndex == 0
            && u.elements[1].id == "b" && u.elements[1].layerIndex == 1
  {
    var s1 := Add(Initial, TextDraft, "a");
    var s2 := Add(s1, ShapeDraft, "b");
    assert s2.elements[0].id == "a";
    HistoryLaws.UndoRevertsRecorded(s2, Remove(s2, "a"));
  }
}

=== FILE: element_patch.dfy ===
/** Partial updates of an element: `{...element, ...updates}` where `updates`
    may carry any attribute except `id` and `type`. An absent attribute keeps
    the element's value. The variant-specific attributes travel as one body of
    the element's own variant; a body of another variant cannot change the
    element's type and is ignored. */
module ElementPatch {
  import opened DesignerTypes

  datatype Patch = Patch(position: Option<Position>, locked: Option<bool>,
                         layerIndex: Option<int>, style: Option<Option<Style>>,
                         body: Option<Body>)

  const NoChange: Patch := Patch(None, None, None, None, None)

  function Or<T>(o: Option<T>, default: T): T {
    match o
    case Some(v) => v
    case None => default
  }

  /** The body a patch gives an element: its own when the patch's is of another variant. */
  function PatchedBody(e: Element, b: Option<Body>): (r: Body)
    ensures TypeOf(r) == e.Type()
    ensures b.Some? && TypeOf(b.value) == e.Type() ==> r == b.value
    ensures b.None? || TypeOf(b.value) != e.Type() ==> r == e.body
  {
    if b.Some? && TypeOf(b.value) == e.Type() then b.value else e.body
  }

  /** Spread a partial update over an element. */
  function ApplyPatch(e: Element, p: Patch): (r: Element)
    ensures r.id == e.id && r.Type() == e.Type()
    ensures p.position.Some? ==> r.position == p.position.value
    ensures p.position.None? ==> r.position == e.position
    ensures p.locked.Some? ==> r.locked == p.locked.value
    ensures p.locked.None? ==> r.locked == e.locked
    ensures p.layerIndex.Some? ==> r.layerIndex == p.layerIndex.value
    ensures p.layerIndex.None? ==> r.layerIndex == e.layerIndex
    ensures p.style.Some? ==> r.style == p.style.value
    ensures p.style.None? ==> r.style == e.style
    ensures p.body.Some? && TypeOf(p.body.value) == e.Type() ==> r.body == p.body.value
    ensures p.body.None? || TypeOf(p.body.value) != e.Type() ==> r.body == e.body
  {
    Element(e.id, Or(p.position, e.position), Or(p.locked, e.locked),
            Or(p.layerIndex, e.layerIndex), Or(p.style, e.style), PatchedBody(e, p.body))
  }

  /** The empty update changes nothing. */
  lemma NoChangeIsIdentity(e: Element)
    ensures ApplyPatch(e, NoChange) == e
  {
  }

  /** Spreading the same update twice is spreading it once. */
  lemma ApplyPatchIdempotent(e: Element, p: Patch)
    ensures ApplyPatch(ApplyPatch(e, p), p) == ApplyPatch(e, p)
  {
  }
}

=== FILE: element_seq.dfy ===
/** Queries and rearrangements of an ordered element collection: lookup by
    id, filtering out an id, the three reorderings the layer moves use and
    the dense renumbering of layer indices that follows every layer move. */
module ElementSeq {
  import opened DesignerTypes

  predicate HasId(els: seq<Element>, id: string) {
    exists i :: 0 <= i < |els| && els[i].id == id
  }

  /** No two elements of the collection share an id. */
  predicate DistinctIds(els: seq<Element>) {
    forall i, j :: 0 <= i < j < |els| ==> els[i].id != els[j].id
  }

  /** `findIndex` on the id: the first position holding `id`, or -1. */
  function FindIndex(els: seq<Element>, id: string): (r: int)
    ensures -1 <= r < |els|
    ensures r == -1 <==> !HasId(els, id)
    ensures r >= 0 ==> els[r].id == id
    ensures r >= 0 ==> forall j :: 0 <= j < r ==> els[j].id != id
  {
    if |els| == 0 then -1
    else if els[0].id == id then 0
    else
      var k := FindIndex(els[1..], id);
      assert forall j :: 1 <= j < |els| ==> els[j] == els[1..][j - 1];
      if k == -1 then -1 else k + 1
  }

  /** Lookup by id sees only the ids, position by position. */
  lemma FindIndexSameIds(a: seq<Element>, b: seq<Element>, id: string)
    requires |a| == |b|
    requires forall i :: 0 <= i < |a| ==> a[i].id == b[i].id
    ensures FindIndex(a, id) == FindIndex(b, id)
    ensures HasId(a, id) <==> HasId(b, id)
  {
    var i, j := FindIndex(a, id), FindIndex(b, id);
    if i >= 0 && j >= 0 {
      assert !(i < j) && !(j < i);
    }
  }

  /** `filter` keeping the elements whose id differs from `id`. */
  function Without(els: seq<Element>, id: string): (r: seq<Element>)
    ensures forall e :: e in r <==> e in els && e.id != id
    ensures !HasId(r, id)
    ensures |r| <= |els|
    ensures HasId(els, id) ==> |r| < |els|
    ensures !HasId(els, id) ==> r == els
  {
    if |els| == 0 then []
    else
      var rest := Without(els[1..], id);
      assert HasId(els, id) && els[0].id != id ==> HasId(els[1..], id) by {
        if HasId(els, id) && els[0].id != id {
          var i :| 0 <= i < |els| && els[i].id == id;
          assert els[1..][i - 1].id == id;
        }
      }
      assert !HasId(els[1..], id) && !HasId(els, id) ==> els == [els[0]] + els[1..];
      if els[0].id == id then rest else [els[0]] + rest
  }

  /** With distinct ids, filtering an id out is deleting the one position that holds it. */
  lemma {:induction false} WithoutDeletesOne(els: seq<Element>, id: string)
    requires DistinctIds(els)
    requires HasId(els, id)
    ensures Without(els, id) == els[..FindIndex(els, id)] + els[FindIndex(els, id) + 1..]
  {
    var i := FindIndex(els, id);
    if i == 0 {
      WithoutHead(els, id);
    } else {
      WithoutStep(els, id);
      WithoutDeletesOne(els[1..], id);
      DeleteAfterHead(els, i);
    }
  }

  /** Deleting a position past the head keeps the head in front. */
  lemma DeleteAfterHead(els: seq<Element>, i: int)
    requires 0 < i < |els|
    ensures els[..i] + els[i + 1..] == [els[0]] + (els[1..][..i - 1] + els[1..][i..])
  {
    assert els[..i] == [els[0]] + els[1..][..i - 1];
    assert els[i + 1..] == els[1..][i..];
  }

  /** The id sits at the head, and only there. */
  lemma WithoutHead(els: seq<Element>, id: string)
    requires DistinctIds(els) && |els| > 0 && els[0].id == id
    ensures Without(els, id) == els[1..]
  {
    assert forall j :: 0 <= j < |els| - 1 ==> els[1..][j] == els[j + 1];
  }

  /** The id sits past the head: filtering keeps the head and recurses. */
  lemma WithoutStep(els: seq<Element>, id: string)
    requires DistinctIds(els) && HasId(els, id) && FindIndex(els, id) > 0
    ensures DistinctIds(els[1..]) && HasId(els[1..], id)
    ensures FindIndex(els[1..], id) == FindIndex(els, id) - 1
    ensures Without(els, id) == [els[0]] + Without(els[1..], id)
  {
    var i := FindIndex(els, id);
    assert els[1..][i - 1].id == id;
  }

  /** Deleting one position keeps the ids distinct. */
  lemma DeleteKeepsDistinct(els: seq<Element>, i: int)
    requires DistinctIds(els)
    requires 0 <= i < |els|
    ensures DistinctIds(els[..i] + els[i + 1..])
  {
    var r := els[..i] + els[i + 1..];
    forall a, b | 0 <= a < b < |r|
      ensures r[a].id != r[b].id
    {
      var a' := if a < i then a else a + 1;
      var b' := if b < i then b else b + 1;
      assert r[a] == els[a'] && r[b] == els[b'];
    }
  }

  /** An element with its layer index forgotten: what a layer move may not change. */
  function Unlayered(e: Element): Element {
    e.(layerIndex := 0)
  }

  /** The collection with every layer index forgotten. */
  function Strip(els: seq<Element>): (r: seq<Element>)
    ensures |r| == |els|
    ensures forall i :: 0 <= i < |els| ==> r[i] == Unlayered(els[i])
  {
    seq(|els|, i requires 0 <= i < |els| => Unlayered(els[i]))
  }

  /** Layer indices equal array positions: `{0, .., n-1}`, each exactly once. */
  predicate Dense(els: seq<Element>) {
    forall i :: 0 <= i < |els| ==> els[i].layerIndex == i
  }

  /** The `forEach((el, index) => el.layerIndex = index)` pass. */
  function Renumber(els: seq<Element>): (r: seq<Element>)
    ensures |r| == |els|
    ensures Dense(r)
    ensures Strip(r) == Strip(els)
    ensures forall i :: 0 <= i < |els| ==> r[i].id == els[i].id
  {
    seq(|els|, i requires 0 <= i < |els| => els[i].(layerIndex := i))
  }

  /** A collection whose indices already match positions is left as it is. */
  lemma RenumberDense(els: seq<Element>)
    requires Dense(els)
    ensures Renumber(els) == els
  {
    var r := Renumber(els);
    assert forall i :: 0 <= i < |els| ==> r[i] == els[i] by {
      forall i | 0 <= i < |els|
        ensures r[i] == els[i]
      {
        assert Unlayered(r[i]) == Strip(r)[i] == Strip(els)[i] == Unlayered(els[i]);
      }
    }
  }

  /** Exchange positions `i` and `i + 1`; everything else stays in place. */
  function SwapAdjacent(els: seq<Element>, i: int): (r: seq<Element>)
    requires 0 <= i < |els| - 1
    ensures |r| == |els|
    ensures r[i] == els[i + 1] && r[i + 1] == els[i]
    ensures forall k :: 0 <= k < |els| && k != i && k != i + 1 ==> r[k] == els[k]
    ensures multiset(r) == multiset(els)
  {
    var r := els[..i] + [els[i + 1], els[i]] + els[i + 2..];
    assert els == els[..i] + [els[i], els[i + 1]] + els[i + 2..];
    r
  }

  /** Take position `i` out and append it after the last element. */
  function MoveToEnd(els: seq<Element>, i: int): (r: seq<Element>)
    requires 0 <= i < |els|
    ensures |r| == |els|
    ensures r[|r| - 1] == els[i]
    ensures forall k :: 0 <= k < i ==> r[k] == els[k]
    ensures forall k :: i <= k < |els| - 1 ==> r[k] == els[k + 1]
    ensures multiset(r) == multiset(els)
  {
    var r := els[..i] + els[i + 1..] + [els[i]];
    assert els == els[..i] + [els[i]] + els[i + 1..];
    r
  }

  /** Take position `i` out and put it in front of the first element. */
  function MoveToStart(els: seq<Element>, i: int): (r: seq<Element>)
    requires 0 <= i < |els|
    ensures |r| == |els|
    ensures r[0] == els[i]
    ensures forall k :: 0 <= k < i ==> r[k + 1] == els[k]
    ensures forall k :: i < k < |els| ==> r[k] == els[k]
    ensures multiset(r) == multiset(els)
  {
    var r := [els[i]] + els[..i] + els[i + 1..];
    assert els == els[..i] + [els[i]] + els[i + 1..];
    r
  }

  /** Forgetting layer indices commutes with each reordering, so a renumbered
      reordering is a permutation of the original up to layer indices. */
  lemma StripSwapAdjacent(els: seq<Element>, i: int)
    requires 0 <= i < |els| - 1
    ensures Strip(Renumber(SwapAdjacent(els, i))) == SwapAdjacent(Strip(els), i)
    ensures multiset(Strip(Renumber(SwapAdjacent(els, i)))) == multiset(Strip(els))
  {
    assert Strip(SwapAdjacent(els, i)) == SwapAdjacent(Strip(els), i);
  }

  lemma StripMoveToEnd(els: seq<Element>, i: int)
    requires 0 <= i < |els|
    ensures Strip(Renumber(MoveToEnd(els, i))) == MoveToEnd(Strip(els), i)
    ensures multiset(Strip(Renumber(MoveToEnd(els, i)))) == multiset(Strip(els))
  {
    assert Strip(MoveToEnd(els, i)) == MoveToEnd(Strip(els), i);
  }

  lemma StripMoveToStart(els: seq<Element>, i: int)
    requires 0 <= i < |els|
    ensures Strip(Renumber(MoveToStart(els, i))) == MoveToStart(Strip(els), i)
    ensures multiset(Strip(Renumber(MoveToStart(els, i)))) == multiset(Strip(els))
  {
    var l := Strip(MoveToStart(els, i));
    var r := MoveToStart(Strip(els), i);
    forall k | 0 <= k < |els|
      ensures l[k] == r[k]
    {
      if 0 < k <= i {
        assert l[k] == Unlayered(els[k - 1]);
      }
    }
    assert l == r;
  }

  /** `r` is `els` with position `i` sent to the front of the order, the
      others shifted up by one above it, all up to their layer indices. */
  predicate SentToStart(r: seq<Element>, els: seq<Element>, i: int) {
    && 0 <= i < |els| && |r| == |els|
    && Unlayered(r[0]) == Unlayered(els[i])
    && (forall k :: 0 < k <= i ==> Unlayered(r[k]) == Unlayered(els[k - 1]))
    && (forall k :: i < k < |els| ==> Unlayered(r[k]) == Unlayered(els[k]))
  }

  /** After moving position `i` to the start and renumbering, each element
      is the one expected at its new position, up to its layer index. */
  lemma MoveToStartUnlayered(els: seq<Element>, i: int)
    requires 0 <= i < |els|
    ensures SentToStart(Renumber(MoveToStart(els, i)), els, i)
  {
    var m := MoveToStart(els, i);
    var r := Renumber(m);
    assert forall k :: 0 <= k < |els| ==> Unlayered(r[k]) == Strip(r)[k] == Strip(m)[k] == Unlayered(m[k]);
  }

  /** Swapping a pair back after renumbering restores the original order. */
  lemma SwapAdjacentTwice(els: seq<Element>, i: int)
    requires 0 <= i < |els| - 1
    ensures Renumber(SwapAdjacent(Renumber(SwapAdjacent(els, i)), i)) == Renumber(els)
  {
    var once := Renumber(SwapAdjacent(els, i));
    var back := SwapAdjacent(once, i);
    forall k | 0 <= k < |els|
      ensures Renumber(back)[k] == Renumber(els)[k]
    {
      if k == i {
        assert back[k] == once[i + 1];
      } else if k == i + 1 {
        assert back[k] == once[i];
      } else {
        assert back[k] == once[k];
      }
    }
  }

  /** A reordering of a collection with distinct ids has distinct ids. */
  lemma PermutationKeepsDistinct(before: seq<Element>, after: seq<Element>)
    requires DistinctIds(before)
    requires multiset(after) == multiset(before)
    ensures DistinctIds(after)
  {
    forall a, b | 0 <= a < b < |after|
      ensures after[a].id != after[b].id
    {
      if after[a].id == after[b].id {
        assert after[a] in multiset(before);
        assert after[b] in multiset(before);
        var i :| 0 <= i < |before| && before[i] == after[a];
        var j :| 0 <= j < |before| && before[j] == after[b];
        if i == j {
          // after[a] == after[b] occurs twice in `after`, so twice in `before`.
          TwiceInMultiset(after, a, b);
          OnceInMultiset(before, i);
        }
      }
    }
  }

  lemma TwiceInMultiset(s: seq<Element>, a: int, b: int)
    requires 0 <= a < b < |s| && s[a] == s[b]
    ensures multiset(s)[s[a]] >= 2
  {
    assert s == s[..a] + [s[a]] + s[a + 1..b] + [s[b]] + s[b + 1..];
  }

  lemma OnceInMultiset(s: seq<Element>, i: int)
    requires DistinctIds(s)
    requires 0 <= i < |s|
    ensures multiset(s)[s[i]] == 1
  {
    assert s == s[..i] + [s[i]] + s[i + 1..];
    assert s[i] !in multiset(s[..i]);
    assert s[i] !in multiset(s[i + 1..]);
  }

  /** Renumbering changes no id, so distinct ids stay distinct. */
  lemma RenumberKeepsDistinct(els: seq<Element>)
    requires DistinctIds(els)
    ensures DistinctIds(Renumber(els))
  {
  }
}

=== FILE: history_laws.dfy ===
/** Laws of the snapshot history: undo reverses any recorded action, redo
    reverses undo and undo reverses redo (selection excepted), any new action
    invalidates redo, template loads cannot be undone, and n undos unwind
    n recorded actions. */
module HistoryLaws {
  import opened DesignerTypes
  import opened ElementSeq
  import opened ElementPatch
  import opened CanvasStore

  /** Undo after any recorded action brings back the collection and the
      undo stack from before it; the undone collection becomes redoable. */
  lemma UndoRevertsRecorded(s: CanvasState, r: CanvasState)
    requires Recorded(s, r)
    ensures Undo(r).applied
    ensures Undo(r).state.elements == s.elements
    ensures Undo(r).state.history == History(s.history.past, [r.elements])
    ensures Undo(r).state.selectedElementId == None
  {
    assert (s.history.past + [s.elements])[..|s.history.past|] == s.history.past;
  }

  /** Redo straight after undo restores the state before the undo, except
      that nothing is selected. */
  lemma RedoAfterUndo(s: CanvasState)
    requires Undo(s).applied
    ensures Redo(Undo(s).state).applied
    ensures Redo(Undo(s).state).state == s.(selectedElementId := None)
  {
    var past := s.history.past;
    assert past[..|past| - 1] + [past[|past| - 1]] == past;
    assert ([s.elements] + s.history.future)[1..] == s.history.future;
  }

  /** Undo straight after redo restores the state before the redo, except
      that nothing is selected. */
  lemma UndoAfterRedo(s: CanvasState)
    requires Redo(s).applied
    ensures Undo(Redo(s).state).applied
    ensures Undo(Redo(s).state).state == s.(selectedElementId := None)
  {
    var future := s.history.future;
    assert (s.history.past + [s.elements])[..|s.history.past|] == s.history.past;
    assert [future[0]] + future[1..] == future;
  }

  /** A recorded action empties the redo stack: redo then has nothing to do. */
  lemma RecordedInvalidatesRedo(s: CanvasState, r: CanvasState)
    requires Recorded(s, r)
    ensures !Redo(r).applied && Redo(r).state == r
  {
  }

  /** Each action except select, resize, undo, redo and template load records history. */
  lemma EffectiveActionsRecord(s: CanvasState, id: string, p: Patch, d: ElementDraft, freshId: string)
    requires !HasId(s.elements, freshId)
    ensures Recorded(s, Add(s, d, freshId)) && Recorded(s, Clear(s))
    ensures HasId(s.elements, id) ==>
              && Recorded(s, Update(s, id, p)) && Recorded(s, Remove(s, id))
              && Recorded(s, Duplicate(s, id, freshId)) && Recorded(s, ToggleLock(s, id))
  {
  }

  /** A template load leaves nothing to undo or redo, whatever came before. */
  lemma LoadTemplateNotUndoable(s: CanvasState, els: seq<Element>, width: real, height: real,
                                freshIds: seq<string>)
    requires |freshIds| == |els|
    requires forall i, j :: 0 <= i < j < |freshIds| ==> freshIds[i] != freshIds[j]
    ensures !Undo(LoadTemplate(s, els, width, height, freshIds)).applied
    ensures !Redo(LoadTemplate(s, els, width, height, freshIds)).applied
  {
  }

  /** A template load replaces the whole document: the state before it has no influence. */
  lemma LoadTemplateForgetsState(s1: CanvasState, s2: CanvasState, els: seq<Element>,
                                 width: real, height: real, freshIds: seq<string>)
    requires |freshIds| == |els|
    requires forall i, j :: 0 <= i < j < |freshIds| ==> freshIds[i] != freshIds[j]
    ensures LoadTemplate(s1, els, width, height, freshIds) == LoadTemplate(s2, els, width, height, freshIds)
  {
  }

  /** Canvas size is not part of history: an undo after resizing the canvas keeps the new size. */
  lemma CanvasSizeSurvivesUndo(s: CanvasState, width: real, height: real)
    ensures Undo(SetCanvasSize(s, width, height)).state.width == width
    ensures Undo(SetCanvasSize(s, width, height)).state.height == height
    ensures Undo(SetCanvasSize(s, width, height)).applied <==> Undo(s).applied
  {
  }

  /** The state after `n` undo calls (calls with nothing to undo change nothing). */
  function UndoTimes(s: CanvasState, n: nat): CanvasState
    decreases n
  {
    if n == 0 then s else UndoTimes(Undo(s).state, n - 1)
  }

  /** Every state of the trace is a recorded action applied to the one before it. */
  predicate RecordedChain(states: seq<CanvasState>) {
    forall k :: 0 <= k < |states| - 1 ==> Recorded(states[k], states[k + 1])
  }

  /** The collections a trace passes through, oldest first, without its last state. */
  function Snapshots(states: seq<CanvasState>): (r: seq<seq<Element>>)
    requires |states| >= 1
    ensures |r| == |states| - 1
    ensures forall k :: 0 <= k < |r| ==> r[k] == states[k].elements
  {
    seq(|states| - 1, k requires 0 <= k < |states| - 1 => states[k].elements)
  }

  /** Along a recorded trace, `past` grows by the collection of every state left behind. */
  lemma {:induction false} PastAlongChain(states: seq<CanvasState>)
    requires |states| >= 1 && RecordedChain(states)
    ensures states[|states| - 1].history.past == states[0].history.past + Snapshots(states)
  {
    var n := |states| - 1;
    if n > 0 {
      var init := states[..n];
      assert RecordedChain(init);
      PastAlongChain(init);
      assert Recorded(states[n - 1], states[n]);
      assert Snapshots(states) == Snapshots(init) + [states[n - 1].elements];
    }
  }

  /** `m` undos on an undo stack ending in `q` (with `|q| == m`) bring back
      `q[0]` and leave the stack as it was below `q`. */
  lemma {:induction false} UndoPops(t: CanvasState, p: seq<seq<Element>>, q: seq<seq<Element>>)
    requires |q| >= 1 && t.history.past == p + q
    ensures UndoTimes(t, |q|).elements == q[0]
    ensures UndoTimes(t, |q|).history.past == p
    decreases |q|
  {
    var m := |q|;
    var u := Undo(t).state;
    assert (p + q)[..m + |p| - 1] == p + q[..m - 1];
    assert u.elements == q[m - 1] && u.history.past == p + q[..m - 1];
    if m > 1 {
      UndoPops(u, p, q[..m - 1]);
    }
  }

  /** Undo inverse law: after a trace of n recorded actions, n undos bring
      back the collection and the undo stack from before the trace. */
  lemma UndoUnwindsChain(states: seq<CanvasState>)
    requires |states| >= 1 && RecordedChain(states)
    ensures UndoTimes(states[|states| - 1], |states| - 1).elements == states[0].elements
    ensures UndoTimes(states[|states| - 1], |states| - 1).history.past == states[0].history.past
  {
    if |states| > 1 {
      PastAlongChain(states);
      UndoPops(states[|states| - 1], states[0].history.past, Snapshots(states));
    }
  }
}

=== FILE: layer_aliasing.dfy ===
/** The layer moves as the store writes them. The copy taken before
    reordering is a copy of the array only, and the renumbering pass then
    assigns `layerIndex` on element objects that the snapshot pushed onto
    `past` still holds. The snapshot keeps the old order but carries the new
    indices, so undoing a layer move brings back the order without the
    indices that went with it. `CanvasStore` models the evidently intended
    move, whose snapshot is the collection as it was. Only
    `moveElementForward` is modelled here; the other three moves share the
    pattern. */
module LayerAliasing {
  import opened DesignerTypes
  import opened ElementSeq
  import opened CanvasStore
  import opened EditLaws

  /** `moveElementForward` as written: the same result as the intended move,
      but the pushed snapshot is the old order carrying the new indices. */
  function MoveForwardAsWritten(s: CanvasState, id: string): (r: CanvasState)
    ensures r == MoveForward(s, id).(history := r.history)
    ensures r.elements == MoveForward(s, id).elements
    ensures r.width == s.width && r.height == s.height
    ensures r.selectedElementId == s.selectedElementId
    ensures var i := FindIndex(s.elements, id);
            i == -1 || i == |s.elements| - 1 ==> r == s
    ensures var i := FindIndex(s.elements, id);
            0 <= i < |s.elements| - 1 ==>
              var n := |s.history.past|;
              && |r.history.past| == n + 1 && r.history.past[..n] == s.history.past
              && r.history.future == []
              && Strip(r.history.past[n]) == Strip(s.elements)
              && |r.history.past[n]| == |s.elements|
              && forall k :: 0 <= k < |s.elements| ==>
                   r.history.past[n][k].layerIndex == (if k == i then i + 1 else if k == i + 1 then i else k)
  {
    var i := FindIndex(s.elements, id);
    var m := MoveForward(s, id);
    if i == -1 || i == |s.elements| - 1 then m
    else
      assert m.elements == Renumber(SwapAdjacent(s.elements, i));
      SwappedBack(s.elements, i);
      m.(history := History(s.history.past + [SwapAdjacent(m.elements, i)], []))
  }

  /** The renumbered swap, put back in the old order: the old elements,
      the pair carrying each other's index. */
  lemma SwappedBack(els: seq<Element>, i: int)
    requires 0 <= i < |els| - 1
    ensures var back := SwapAdjacent(Renumber(SwapAdjacent(els, i)), i);
            && Strip(back) == Strip(els)
            && |back| == |els|
            && forall k :: 0 <= k < |els| ==>
                 back[k].layerIndex == (if k == i then i + 1 else if k == i + 1 then i else k)
  {
    var m := Renumber(SwapAdjacent(els, i));
    var back := SwapAdjacent(m, i);
    forall k | 0 <= k < |els|
      ensures Unlayered(back[k]) == Unlayered(els[k])
      ensures back[k].layerIndex == (if k == i then i + 1 else if k == i + 1 then i else k)
    {
      if k == i {
        assert back[k] == m[i + 1];
      } else if k == i + 1 {
        assert back[k] == m[i];
      } else {
        assert back[k] == m[k];
      }
    }
  }

  /** Undoing the move as written restores the order of the elements but
      not their layer indices: the moved pair comes back with swapped indices. */
  lemma UndoAfterForwardAsWritten(s: CanvasState, id: string)
    requires 0 <= FindIndex(s.elements, id) < |s.elements| - 1
    ensures var i := FindIndex(s.elements, id);
            var u := Undo(MoveForwardAsWritten(s, id));
            && u.applied
            && Strip(u.state.elements) == Strip(s.elements)
            && u.state.elements[i].layerIndex == i + 1
            && u.state.elements[i + 1].layerIndex == i
  {
  }

  /** Two elements at layers 0 and 1; moving the bottom one forward and
      undoing gives them back in their old order at layers 1 and 0, which is
      neither the document before the move nor densely numbered. */
  lemma ForwardUndoCounterexample()
    ensures var s := Initial.(elements := [Label("a", 0), Label("b", 1)]);
            var u := Undo(MoveForwardAsWritten(s, "a")).state;
            && u.elements == [Label("a", 1), Label("b", 0)]
            && u.elements != s.elements
            && !Dense(u.elements)
  {
    var s := Initial.(elements := [Label("a", 0), Label("b", 1)]);
    assert FindIndex(s.elements, "a") == 0;
    var u := Undo(MoveForwardAsWritten(s, "a")).state;
    assert u.elements[0] == Label("a", 1) && u.elements[1] == Label("b", 0);
    assert u.elements[0] != s.elements[0];
  }

  /** The intended move: undo brings back exactly the collection before it. */
  lemma UndoAfterForward(s: CanvasState, id: string)
    requires 0 <= FindIndex(s.elements, id) < |s.elements| - 1
    ensures Undo(MoveForward(s, id)).applied
    ensures Undo(MoveForward(s, id)).state.elements == s.elements
  {
    var r := MoveForward(s, id);
    assert (s.history.past + [s.elements])[..|s.history.past|] == s.history.past;
  }
}

=== FILE: layer_laws.dfy ===
/** Laws of the four layer moves: each is a permutation of the collection up
    to layer indices, leaves the indices dense, and moving forward then
    backward (or to front twice, to back twice) behaves as expected when ids
    are distinct. */
module LayerLaws {
  import opened DesignerTypes
  import opened ElementSeq
  import opened CanvasStore

  /** Every layer move yields a permutation of the elements, up to their
      layer indices. */
  lemma MoveForwardPermutes(s: CanvasState, id: string)
    ensures multiset(Strip(MoveForward(s, id).elements)) == multiset(Strip(s.elements))
  {
    var i := FindIndex(s.elements, id);
    if 0 <= i < |s.elements| - 1 {
      assert MoveForward(s, id).elements == Renumber(SwapAdjacent(s.elements, i));
      StripSwapAdjacent(s.elements, i);
    }
  }

  lemma MoveBackwardPermutes(s: CanvasState, id: string)
    ensures multiset(Strip(MoveBackward(s, id).elements)) == multiset(Strip(s.elements))
  {
    var i := FindIndex(s.elements, id);
    if 0 < i {
      assert MoveBackward(s, id).elements == Renumber(SwapAdjacent(s.elements, i - 1));
      StripSwapAdjacent(s.elements, i - 1);
    }
  }

  lemma MoveToFrontPermutes(s: CanvasState, id: string)
    ensures multiset(Strip(MoveToFront(s, id).elements)) == multiset(Strip(s.elements))
  {
    var i := FindIndex(s.elements, id);
    if 0 <= i < |s.elements| - 1 {
      assert MoveToFront(s, id).elements == Renumber(MoveToEnd(s.elements, i));
      StripMoveToEnd(s.elements, i);
    }
  }

  lemma MoveToBackPermutes(s: CanvasState, id: string)
    ensures multiset(Strip(MoveToBack(s, id).elements)) == multiset(Strip(s.elements))
  {
    var i := FindIndex(s.elements, id);
    if 0 < i {
      assert MoveToBack(s, id).elements == Renumber(MoveToStart(s.elements, i));
      StripMoveToStart(s.elements, i);
    }
  }

  /** A layer move that does something leaves the layer indices dense; one
      that does nothing leaves the whole state alone. */
  lemma LayerMovesDenseOrNoOp(s: CanvasState, id: string)
    ensures MoveForward(s, id) == s || Dense(MoveForward(s, id).elements)
    ensures MoveBackward(s, id) == s || Dense(MoveBackward(s, id).elements)
    ensures MoveToFront(s, id) == s || Dense(MoveToFront(s, id).elements)
    ensures MoveToBack(s, id) == s || Dense(MoveToBack(s, id).elements)
  {
  }

  /** Forward then backward restores the original order, with dense indices. */
  lemma ForwardThenBackward(s: CanvasState, id: string)
    requires DistinctIds(s.elements)
    requires 0 <= FindIndex(s.elements, id) < |s.elements| - 1
    ensures MoveBackward(MoveForward(s, id), id).elements == Renumber(s.elements)
  {
    var i := FindIndex(s.elements, id);
    var r := MoveForward(s, id);
    assert r.elements == Renumber(SwapAdjacent(s.elements, i));
    ForwardLandsAbove(s, id);
    assert MoveBackward(r, id).elements == Renumber(SwapAdjacent(r.elements, i));
    SwapAdjacentTwice(s.elements, i);
  }

  /** After moving forward, the element sits one position higher. */
  lemma ForwardLandsAbove(s: CanvasState, id: string)
    requires DistinctIds(s.elements)
    requires 0 <= FindIndex(s.elements, id) < |s.elements| - 1
    ensures FindIndex(MoveForward(s, id).elements, id) == FindIndex(s.elements, id) + 1
  {
    var i := FindIndex(s.elements, id);
    var r := MoveForward(s, id);
    assert r.elements == Renumber(SwapAdjacent(s.elements, i));
    assert r.elements[i + 1].id == id;
    forall j | 0 <= j < i + 1
      ensures r.elements[j].id != id
    {
      if j < i {
        assert r.elements[j].id == s.elements[j].id;
      } else {
        assert r.elements[j].id == s.elements[i + 1].id;
      }
    }
  }

  /** Bringing an element to the front twice is bringing it there once. */
  lemma ToFrontIdempotent(s: CanvasState, id: string)
    requires DistinctIds(s.elements)
    ensures MoveToFront(MoveToFront(s, id), id) == MoveToFront(s, id)
  {
    var i := FindIndex(s.elements, id);
    var n := |s.elements|;
    if 0 <= i < n - 1 {
      var r := MoveToFront(s, id);
      var m := MoveToEnd(s.elements, i);
      assert r.elements == Renumber(m);
      assert r.elements[n - 1].id == id;
      forall j | 0 <= j < n - 1
        ensures r.elements[j].id != id
      {
        if j < i {
          assert r.elements[j].id == s.elements[j].id;
        } else {
          assert r.elements[j].id == s.elements[j + 1].id;
        }
      }
      assert FindIndex(r.elements, id) == n - 1;
    }
  }

  /** Sending an element to the back twice is sending it there once. */
  lemma ToBackIdempotent(s: CanvasState, id: string)
    requires DistinctIds(s.elements)
    ensures MoveToBack(MoveToBack(s, id), id) == MoveToBack(s, id)
  {
    var i := FindIndex(s.elements, id);
    if 0 < i {
      var r := MoveToBack(s, id);
      assert r.elements == Renumber(MoveToStart(s.elements, i));
      assert r.elements[0].id == id;
      assert FindIndex(r.elements, id) == 0;
    }
  }
}

=== FILE: numeric.dfy ===
/** `Math.min` and `Math.max` on finite numbers, and a point of the plane
    in the canvas's coordinates. */
module Numeric {
  datatype Point = Point(x: real, y: real)

  function Min(a: real, b: real): (r: real)
    ensures r <= a && r <= b && (r == a || r == b)
  {
    if a <= b then a else b
  }

  function Max(a: real, b: real): (r: real)
    ensures r >= a && r >= b && (r == a || r == b)
  {
    if a >= b then a else b
  }
}

=== FILE: resize.dfy ===
/** Corner-handle resizing. A gesture captures the pointer and the element's
    size when it starts; every pointer move then recomputes the size from that
    start snapshot alone, with a floor on each side and an optional lock of the
    start aspect ratio. Rotation is not part of this model. */
module Resize {
  import opened DesignerTypes
  import opened Numeric

  datatype Handle = TopLeft | TopRight | BottomLeft | BottomRight

  datatype Size = Size(width: real, height: real)

  /** What the gesture remembers from its start: pointer and element size. */
  datatype Start = Start(x: real, y: real, width: real, height: real)

  /** The component's default floor for both sides: the `minWidth` and
      `minHeight` props default to it. */
  const DefaultMinSize: real := 20.0

  /** +1 when dragging right grows the width, -1 for the left-hand handles. */
  function WidthSign(h: Handle): real {
    if h == BottomLeft || h == TopLeft then -1.0 else 1.0
  }

  /** +1 when dragging down grows the height, -1 for the top handles. */
  function HeightSign(h: Handle): real {
    if h == TopRight || h == TopLeft then -1.0 else 1.0
  }

  /** The size before any aspect-ratio adjustment: start size plus the
      pointer's travel, signed by the handle's corner, floored. */
  function Floored(h: Handle, st: Start, p: Point, minWidth: real, minHeight: real): (r: Size)
    ensures h == BottomRight ==>
              r == Size(Max(minWidth, st.width + (p.x - st.x)), Max(minHeight, st.height + (p.y - st.y)))
    ensures h == BottomLeft ==>
              r == Size(Max(minWidth, st.width - (p.x - st.x)), Max(minHeight, st.height + (p.y - st.y)))
    ensures h == TopRight ==>
              r == Size(Max(minWidth, st.width + (p.x - st.x)), Max(minHeight, st.height - (p.y - st.y)))
    ensures h == TopLeft ==>
              r == Size(Max(minWidth, st.width - (p.x - st.x)), Max(minHeight, st.height - (p.y - st.y)))
    ensures r.width >= minWidth && r.height >= minHeight
  {
    Size(Max(minWidth, st.width + WidthSign(h) * (p.x - st.x)),
         Max(minHeight, st.height + HeightSign(h) * (p.y - st.y)))
  }

  lemma MulStrict(a: real, b: real, c: real)
    requires c > 0.0 && a > b
    ensures a * c > b * c
  {
  }

  lemma MulWeak(a: real, b: real, c: real)
    requires c >= 0.0 && a <= b
    ensures a * c <= b * c
  {
  }

  lemma DivMul(a: real, c: real)
    requires c != 0.0
    ensures (a / c) * c == a
  {
  }

  lemma DivPos(a: real, c: real)
    requires a > 0.0 && c > 0.0
    ensures a / c > 0.0
  {
    DivMul(a, c);
    if a / c <= 0.0 {
      MulWeak(a / c, 0.0, c);
    }
  }

  lemma DivBound(w: real, ratio: real, bound: real)
    requires ratio > 0.0 && w <= ratio * bound
    ensures w / ratio <= bound
  {
    DivMul(w, ratio);
    if w / ratio > bound {
      MulStrict(w / ratio, bound, ratio);
    }
  }

  /** The width is too long for the ratio: keep the height, shrink the width. */
  lemma ShrinkWidth(fw: real, fh: real, ratio: real)
    requires fh > 0.0 && fw / fh > ratio
    ensures fh * ratio < fw
  {
    DivMul(fw, fh);
    MulStrict(fw / fh, ratio, fh);
  }

  /** The height is too long for the ratio (or just right): keep the width, shrink the height. */
  lemma ShrinkHeight(fw: real, fh: real, ratio: real)
    requires fw > 0.0 && fh > 0.0 && ratio > 0.0 && fw / fh <= ratio
    ensures 0.0 < fw / ratio <= fh
    ensures (fw / ratio) * ratio == fw
  {
    DivMul(fw, fh);
    DivMul(fw, ratio);
    DivPos(fw, ratio);
    MulWeak(fw / fh, ratio, fh);
    DivBound(fw, ratio, fh);
  }

  /** Scaling by a positive factor keeps the sign. */
  lemma ScaleSign(a: real, c: real)
    requires c > 0.0
    ensures a > 0.0 ==> c * a > 0.0
    ensures a < 0.0 ==> c * a < 0.0
  {
    if a > 0.0 {
      MulStrict(a, 0.0, c);
    }
    if a < 0.0 {
      MulStrict(0.0, a, c);
    }
  }

  /** The sign of a quotient is the sign of the product. */
  lemma QuotientSign(a: real, c: real)
    requires c != 0.0
    ensures a * c > 0.0 ==> a / c > 0.0
    ensures a * c < 0.0 ==> a / c < 0.0
    ensures a == 0.0 ==> a / c == 0.0
  {
    var q := a / c;
    DivMul(a, c);
    assert q * (c * c) == a * c;
    assert c * c > 0.0;
    if q <= 0.0 {
      MulWeak(q, 0.0, c * c);
    }
    if q >= 0.0 {
      MulWeak(0.0, q, c * c);
    }
  }

  /** `r` has the aspect ratio of the gesture's start size. */
  predicate KeepsRatio(r: Size, st: Start) {
    r.width * st.height == r.height * st.width
  }

  /** `r` fits inside `f` and touches it on at least one side. */
  predicate FitsAndTouches(r: Size, f: Size) {
    && r.width <= f.width && r.height <= f.height
    && (r.width == f.width || r.height == f.height)
  }

  /** The start ratio `width / height` is a number or +Infinity. A 0 by 0
      start gives NaN and a negative width over a zero height -Infinity,
      neither of which a `real` can hold. */
  predicate RatioDefined(st: Start) {
    st.height != 0.0 || st.width > 0.0
  }

  /** The lock with a finite start ratio: the width is too long for it, so
      the height is kept, or the height is kept too long, so the width is. */
  function LockFiniteRatio(f: Size, st: Start): (r: Size)
    requires st.height != 0.0 && f.width > 0.0 && f.height > 0.0
    ensures KeepsRatio(r, st) && FitsAndTouches(r, f)
    ensures st.width * st.height > 0.0 ==> r.width > 0.0 && r.height > 0.0
    ensures st.width * st.height <= 0.0 ==> r == Size(f.height * (st.width / st.height), f.height)
  {
    var ratio := st.width / st.height;
    DivMul(st.width, st.height);
    QuotientSign(st.width, st.height);
    DivPos(f.width, f.height);
    if f.width / f.height > ratio then
      ShrinkWidth(f.width, f.height, ratio);
      assert (f.height * ratio) * st.height == f.height * (ratio * st.height);
      ScaleSign(ratio, f.height);
      Size(f.height * ratio, f.height)
    else
      var h := f.width / ratio;
      ShrinkHeight(f.width, f.height, ratio);
      assert h * st.width == h * (ratio * st.height);
      assert h * (ratio * st.height) == (h * ratio) * st.height;
      Size(f.width, h)
  }

  /** The lock shrinks whichever side is too long for the start ratio. A
      zero start width gives ratio 0, so the width collapses to 0; a zero
      start height gives ratio +Infinity, the comparison fails and the
      height becomes `width / Infinity`, that is 0. */
  function LockRatio(f: Size, st: Start): (r: Size)
    requires RatioDefined(st) && f.width > 0.0 && f.height > 0.0
    ensures KeepsRatio(r, st)
    ensures FitsAndTouches(r, f)
    ensures st.width * st.height > 0.0 ==> r.width > 0.0 && r.height > 0.0
    ensures st.width * st.height < 0.0 ==> r.width < 0.0 && r.height == f.height
    ensures st.width == 0.0 ==> r == Size(0.0, f.height)
    ensures st.height == 0.0 ==> r == Size(f.width, 0.0)
  {
    if st.height == 0.0 then Size(f.width, 0.0)
    else
      var r := LockFiniteRatio(f, st);
      QuotientSign(st.width, st.height);
      ScaleSign(st.width / st.height, f.height);
      r
  }

  /** The size one pointer move produces. */
  function ResizeTo(h: Handle, st: Start, p: Point, minWidth: real, minHeight: real,
                    preserveAspectRatio: bool): (r: Size)
    requires preserveAspectRatio ==> RatioDefined(st) && minWidth > 0.0 && minHeight > 0.0
    ensures !preserveAspectRatio ==> r == Floored(h, st, p, minWidth, minHeight)
    ensures !preserveAspectRatio ==> r.width >= minWidth && r.height >= minHeight
    ensures preserveAspectRatio ==>
              KeepsRatio(r, st) && FitsAndTouches(r, Floored(h, st, p, minWidth, minHeight))
    ensures preserveAspectRatio && st.width == 0.0 ==> r.width == 0.0
    ensures preserveAspectRatio && st.height == 0.0 ==> r.height == 0.0
  {
    var f := Floored(h, st, p, minWidth, minHeight);
    if preserveAspectRatio then LockRatio(f, st) else f
  }

  /** With the aspect ratio locked the floor can be undercut: a 100 by 20
      element dragged 90 to the left by its bottom-right handle comes out
      20 by 4. */
  lemma LockedRatioUndercutsFloor()
    ensures ResizeTo(BottomRight, Start(0.0, 0.0, 100.0, 20.0), Point(-90.0, 0.0),
                     DefaultMinSize, DefaultMinSize, true) == Size(20.0, 4.0)
  {
    var f := Floored(BottomRight, Start(0.0, 0.0, 100.0, 20.0), Point(-90.0, 0.0),
                     DefaultMinSize, DefaultMinSize);
    assert f == Size(20.0, 20.0);
  }

  /** An element whose start width is 0, as an emptied width field in the
      arrange panel leaves it, keeps width 0 under the lock however far it
      is dragged. */
  lemma LockedZeroWidthStaysZero()
    ensures ResizeTo(BottomRight, Start(0.0, 0.0, 0.0, 40.0), Point(50.0, 10.0),
                     DefaultMinSize, DefaultMinSize, true) == Size(0.0, 50.0)
  {
    var f := Floored(BottomRight, Start(0.0, 0.0, 0.0, 40.0), Point(50.0, 10.0),
                     DefaultMinSize, DefaultMinSize);
    assert f == Size(50.0, 50.0);
  }

  /** A gesture in progress, or none. */
  datatype Session = Idle | Resizing(handle: Handle, start: Start)

  /** Pressing a handle: a locked element starts no gesture. */
  function BeginResize(s: Session, locked: bool, h: Handle, pointer: Point,
                       width: real, height: real): (r: Session)
    ensures locked ==> r == s
    ensures !locked ==> r == Resizing(h, Start(pointer.x, pointer.y, width, height))
  {
    if locked then s else Resizing(h, Start(pointer.x, pointer.y, width, height))
  }

  /** Releasing the pointer ends the gesture, keeping the last size. */
  function EndResize(s: Session): (r: Session)
    ensures r.Idle?
  {
    Idle
  }

  /** What the lock needs of a gesture that computes a size. */
  predicate RatioReady(st: Start, minWidth: real, minHeight: real, preserveAspectRatio: bool) {
    preserveAspectRatio ==> RatioDefined(st) && minWidth > 0.0 && minHeight > 0.0
  }

  /** A pointer move: no size without a gesture or while locked. */
  function ResizeMove(s: Session, locked: bool, p: Point, minWidth: real, minHeight: real,
                      preserveAspectRatio: bool): (r: Option<Size>)
    requires s.Resizing? && !locked ==> RatioReady(s.start, minWidth, minHeight, preserveAspectRatio)
    ensures r.Some? <==> s.Resizing? && !locked
    ensures r.Some? ==> r.value == ResizeTo(s.handle, s.start, p, minWidth, minHeight, preserveAspectRatio)
  {
    if s.Idle? || locked then None
    else Some(ResizeTo(s.handle, s.start, p, minWidth, minHeight, preserveAspectRatio))
  }

  /** The element's size after a run of pointer moves within one gesture:
      each move that yields a size replaces the current one. */
  function Gesture(s: Session, locked: bool, moves: seq<Point>, current: Size,
                   minWidth: real, minHeight: real, preserveAspectRatio: bool): (r: Size)
    requires s.Resizing? && !locked ==> RatioReady(s.start, minWidth, minHeight, preserveAspectRatio)
    ensures |moves| == 0 ==> r == current
    ensures r != current ==> s.Resizing? && !locked
    decreases |moves|
  {
    if |moves| == 0 then current
    else
      var next := match ResizeMove(s, locked, moves[0], minWidth, minHeight, preserveAspectRatio)
                  case Some(sz) => sz
                  case None => current;
      Gesture(s, locked, moves[1..], next, minWidth, minHeight, preserveAspectRatio)
  }

  /** The size at the end of a gesture depends only on the start snapshot
      and the last pointer position, not on the moves before it nor on the
      size the element had meanwhile. */
  lemma {:induction false} GestureDependsOnLastPointer(s: Session, moves: seq<Point>, current: Size,
                                                       minWidth: real, minHeight: real,
                                                       preserveAspectRatio: bool)
    requires s.Resizing? && |moves| > 0
    requires RatioReady(s.start, minWidth, minHeight, preserveAspectRatio)
    ensures Gesture(s, false, moves, current, minWidth, minHeight, preserveAspectRatio)
         == ResizeTo(s.handle, s.start, moves[|moves| - 1], minWidth, minHeight, preserveAspectRatio)
    decreases |moves|
  {
    if |moves| > 1 {
      var next := ResizeTo(s.handle, s.start, moves[0], minWidth, minHeight, preserveAspectRatio);
      GestureDependsOnLastPointer(s, moves[1..], next, minWidth, minHeight, preserveAspectRatio);
    }
  }

  /** While the element is locked a gesture never changes its size: the
      gesture-level consequence of `ResizeMove` producing nothing when locked. */
  lemma {:induction false} LockedGestureKeepsSize(s: Session, moves: seq<Point>, current: Size,
                                                  minWidth: real, minHeight: real,
                                                  preserveAspectRatio: bool)
    ensures Gesture(s, true, moves, current, minWidth, minHeight, preserveAspectRatio) == current
    decreases |moves|
  {
    if |moves| > 0 {
      LockedGestureKeepsSize(s, moves[1..], current, minWidth, minHeight, preserveAspectRatio);
    }
  }
}
